=== FILE: README.md ===
# Quickstart in Dafny

Quickstart is a personal task menu with a mobile app, a web app and a
home-screen widget. All three share one data model and one selection rule.
The selection rule is `selectMenuItems`: given the user's items, a mode
(`do`, `decide` or `drift`) and the preference record, it returns the items to
show. It keeps the items of that mode, drops disabled items and items hit by
the tag or keyword blocklists, sorts the rest by duration bucket or by recency,
and cuts the list at the mode's cap.

This project models that rule and the code around it:

- the built-in default data;
- the widget's per-mode pick;
- the snapshot reducers of both clients (add, update and delete an item, add a
  session, replace the preferences, replace or merge a snapshot, delete a
  category);
- the item editors (chip cycling, tag toggling, the comma-separated tag field,
  the empty item, the start-step hint);
- the settings screens (categories, ordering, caps, widget mode, import check,
  export and upload);
- the mobile theme resolution.

Each module holds the functions that model the code, with contracts. Lemmas
connect each operation to a partner: its inverse, an invariant it keeps, or an
independent reference definition.

| file | module | models |
|---|---|---|
| `types.dfy` | `Types` | the record types, the duration rank, the per-mode cap |
| `seqs.dfy` | `Seqs` | `filter`, `indexOf`, and facts about them |
| `text.dfy` | `Text` | ASCII `toLowerCase`, `includes`, `trim`, `split(",")`, `join(", ")` |
| `sorting.dfy` | `StableSort` | `orderItems` as a stable sort on an integer key |
| `selector.dfy` | `Selector` | `applyBlocklists` and `selectMenuItems` |
| `defaults.dfy` | `Defaults` | `baseItem`, `defaultItems`, `defaultRules`, `defaultPreferences` |
| `default_views.dfy` | `DefaultViews` | what the selector shows on the default data |
| `widget.dfy` | `Widget` | `pickTop` and `generateWidgetSnapshot` |
| `store.dfy` | `Store` | the app-context reducers and `applySnapshot` |
| `mobile_editor.dfy` | `MobileEditor` | `cycleValue`, the chips, the tag toggle, `handleAdd` |
| `web_editor.dfy` | `WebEditor` | `createEmptyItem`, the tag field, the start-step hint |
| `mobile_settings.dfy` | `MobileSettings` | category add and rename, the ordering switch, the import check |
| `web_settings.dfy` | `WebSettings` | `updateCaps`, the widget mode picker, export, `handleUpload` |
| `theme.dfy` | `Theme` | the theme memo, the initial mode, `setMode`, loading the saved mode |

Modelling choices:

- **Timestamps.** ISO-8601 timestamps are integer instants. Identifiers and
  clock reads (`uuid()`, `Date.now()`, `crypto.randomUUID()`,
  `new Date()`) are parameters.
- **Null and optional values.** `null` and absent optional fields are
  `Option.None`. An `undefined` category, which `cycleValue` yields on an empty
  category list, is also `None`.
- **Category.** `MenuItem.category` is a free-form `Option<string>`. The mobile
  app files items under user-defined category names, and casts those names
  into the `MenuCategory` union.
- **Ordering.** `ordering` is a closed choice of `ByDuration` and `ByRecent`.
  The third `return` in `orderItems` (selector.ts line 15) cannot be reached
  for these two values. It also names `order`, which is not in scope at that
  point. So no duration fallback for unknown values is modelled.
- **Sort.** `Array.prototype.sort` is stable. Both comparators are modelled as
  one stable insertion sort on an integer key:
  - the rank 0/1/2 of the bucket for duration ordering;
  - `-updatedAt` for recent ordering.
- **Cap.** The cap goes through `slice(0, cap)` as written:
  - a cap of zero gives nothing;
  - a cap larger than the list gives the whole list;
  - a negative cap drops that many items from the end (section 23.1.3.28 of
    ECMA-262).

  So a negative cap does not always give an empty list. The model follows the
  code here.
- **Mobile and web reducers.** They build the same next snapshot for `addItem`,
  `updateItem`, `deleteItem`, `addSession` and `updatePreferences`, so each is
  modelled once in `Store`.
- **Replacing a snapshot.** The mobile `replaceSnapshot` persists `next` as
  is. The web one spreads `next` over the current snapshot. `Store.ApplySnapshot`
  models the spread, and `Store.ApplyCompleteReplaces` shows that a complete
  snapshot spread this way is a plain replacement.

## Model

| member | source | states |
|---|---|---|
| Types.Rank | packages/storage/src/selector.ts:5-6 | the duration rank is 0 for 2m and 2 for 25m, and stays below 3 |
| Types.RankInjective | packages/storage/src/selector.ts:5 | different buckets have different ranks, so duration order is decided by the bucket |
| Types.CapFor | packages/storage/src/selector.ts:49-54 | the cap of each mode is that mode's field of `caps` |
| Seqs.Filter | packages/storage/src/selector.ts:23-35 | `filter` keeps only elements that pass the test, and never grows the sequence |
| Seqs.FilterMultiset | packages/storage/src/selector.ts:23 | filtering only drops elements and never duplicates one |
| Seqs.FilterCount | packages/storage/src/selector.ts:23 | `filter` keeps every copy of a passing value and no copy of a failing one |
| Seqs.FilterKeeps | packages/storage/src/selector.ts:23 | every element that passes the test survives the filter |
| Seqs.FilterConcat | packages/storage/src/selector.ts:44 | filtering distributes over concatenation, keeping relative order |
| Seqs.FilterBlock | packages/storage/src/selector.ts:44 | when exactly one contiguous block passes, the filter returns that block |
| Seqs.IndexOf | apps/mobile/app/settings.tsx:42 | `indexOf` returns -1 exactly when the value is absent, and otherwise the first position holding it |
| Seqs.IndexOfFirst | apps/mobile/app/editor.tsx:36 | a position holding the value with no earlier copy is the position `indexOf` returns |
| Text.Lower | packages/storage/src/selector.ts:19-21 | lower-casing keeps the length and maps each character on its own |
| Text.Contains | packages/storage/src/selector.ts:34 | `includes` holds exactly when the pattern occurs at some position of the text |
| Text.ContainsEmpty | packages/storage/src/selector.ts:34 | every text includes the empty string |
| Text.Trim | apps/web/src/pages/editor.tsx:151 | `trim` yields a string with no whitespace at either end, and leaves a trimmed string as it is |
| Text.TrimStripsEnds | apps/web/src/pages/editor.tsx:151 | `trim` returns an infix of its input, and everything it drops before and after that infix is whitespace |
| Text.TrimStartDropsSpace | apps/web/src/pages/editor.tsx:151 | the leading part `trim` removes is all whitespace |
| Text.TrimEndDropsSpace | apps/web/src/pages/editor.tsx:151 | the trailing part `trim` removes is all whitespace |
| Text.TrimBlank | apps/web/src/pages/editor.tsx:151-152 | a text trims to the empty string exactly when every character of it is whitespace |
| Text.TrimIdempotent | apps/web/src/pages/editor.tsx:151 | trimming twice is trimming once |
| Text.TrimLeadingSpace | apps/web/src/pages/editor.tsx:151 | a leading whitespace character never survives a trim |
| Text.SplitComma | apps/web/src/pages/editor.tsx:150 | `split(",")` yields one piece more than there are commas, and no piece holds a comma |
| Text.SplitAtComma | apps/web/src/pages/editor.tsx:150 | the first comma ends the first piece |
| Text.SplitNoComma | apps/web/src/pages/editor.tsx:150 | a text without a comma splits into itself alone |
| Text.JoinComma | apps/web/src/pages/editor.tsx:145 | `join(", ")` of no pieces is the empty text, and joining comma-free pieces puts exactly one comma between neighbours |
| Text.SplitJoin | apps/web/src/pages/editor.tsx:145-150 | splitting a join of comma-free pieces at the commas gives one piece per joined piece: the first as is, each later one behind the space the join added |
| Text.CommaCountConcat | apps/web/src/pages/editor.tsx:150 | the commas of a concatenation are the commas of its parts |
| StableSort.Insert | packages/storage/src/selector.ts:6 | inserting adds exactly the one item to the multiset |
| StableSort.InsertSorted | packages/storage/src/selector.ts:6 | inserting into a sorted list keeps it sorted |
| StableSort.InsertStable | packages/storage/src/selector.ts:6 | the inserted item goes in front of the earlier items with the same key |
| StableSort.OrderItems | packages/storage/src/selector.ts:3-13 | `orderItems` returns a permutation of its input, sorted ascending by rank (duration) or descending by `updatedAt` (recent) |
| StableSort.OrderItemsSorted | packages/storage/src/selector.ts:3-13 | sorting an already ordered list changes nothing |
| StableSort.OrderItemsStable | packages/storage/src/selector.ts:6-12 | for every key, the items with that key keep their input order (the sort is stable) |
| StableSort.SortedSplit | packages/storage/src/selector.ts:6-12 | in an ordered list no later item has a smaller key than an earlier one |
| Selector.OfMode | packages/storage/src/selector.ts:44 | the mode filter keeps exactly the items of the mode, drawn from the input |
| Selector.OfModeCount | packages/storage/src/selector.ts:44 | the mode filter keeps every copy of an item of the mode and no copy of any other item |
| Selector.ApplyBlocklists | packages/storage/src/selector.ts:18-36 | the blocklist filter keeps exactly the enabled items with no blocked tag and no blocked keyword in title or start step, case-insensitively |
| Selector.ApplyBlocklistsCount | packages/storage/src/selector.ts:23-35 | the blocklist filter keeps every copy of an admitted item and no copy of any other item |
| Selector.CandidatesSound | packages/storage/src/selector.ts:43-46 | every item that passes both filters has the requested mode and is admitted |
| Selector.SliceEnd | packages/storage/src/selector.ts:56 | `slice(0, cap)` clamps a large cap to the length and counts a negative cap back from the end |
| Selector.SelectMenuItems | packages/storage/src/selector.ts:38-57 | every selected item has the requested mode, is enabled and not blocklisted, comes from the input, and the selection is in the chosen order |
| Selector.SelectIsCappedPrefix | packages/storage/src/selector.ts:48-56 | the selection is a prefix of the ordered candidates, never longer than a non-negative cap, and as long as the cap or all candidates |
| Selector.SelectOrder | packages/storage/src/selector.ts:4-12 | duration ordering gives non-decreasing ranks, and recent ordering gives non-increasing `updatedAt` |
| Selector.SelectStable | packages/storage/src/selector.ts:4-12 | for every key, the selected items with that key are the first candidates with that key, in input order |
| Selector.SelectTakesSmallestKeys | packages/storage/src/selector.ts:56 | any candidate the cap cuts off has a key no smaller than every selected item |
| Selector.CandidateMember | packages/storage/src/selector.ts:43-46 | an enabled, unblocked item of the requested mode passes both filters |
| Selector.SelectComplete | packages/storage/src/selector.ts:56 | when the cap covers every candidate, every admitted item of the mode is selected |
| Selector.EmptyKeywordBlocksAll | packages/storage/src/selector.ts:33-34 | an empty keyword on the blocklist hides every item |
| Selector.SelectUnfiltered | packages/storage/src/selector.ts:38-57 | when all items of the mode are admitted, already ordered and within the cap, the selection is exactly those items |
| Selector.EmptyBlocklistsKeepEnabled | packages/storage/src/selector.ts:23-35 | with both blocklists empty, only disabled items are dropped |
| Defaults.BaseItem | packages/storage/src/defaults.ts:6-19 | the base item has the given id and clock reads, mode `do`, empty title and start step, the 2-minute bucket, category `career`, no tags, friction 1, and is enabled |
| Defaults.DefaultItem | packages/storage/src/defaults.ts:6-19 | a default item is enabled and untagged, carries its two clock reads as `createdAt` and `updatedAt`, and has the given id, mode, bucket and category |
| Defaults.DefaultItems | packages/storage/src/defaults.ts:21-78 | the default list has seven enabled, untagged items with the given ids, each stamped with its own two clock reads |
| Defaults.DefaultPreferences | packages/storage/src/defaults.ts:91-106 | the default caps are 5, 3 and 3, ordering is by duration, and both blocklists are empty |
| Defaults.DefaultRules | packages/storage/src/defaults.ts:80-87 | there is one default rule, with no conditions |
| Defaults.DefaultSnapshot | apps/mobile/data/app-context.tsx:35-40 | the starting snapshot has the seven default items, one rule, no sessions and the default caps |
| Defaults.DefaultItemsLayout | packages/storage/src/defaults.ts:21-78 | the default list is three `do` items (2m, 10m, 25m), then two 2m `decide` items, then two `drift` items, all enabled |
| DefaultViews.DefaultDoItems | packages/storage/src/defaults.ts:21-46 | the `do` items of the default list are its first three, in increasing duration |
| DefaultViews.DefaultDecideItems | packages/storage/src/defaults.ts:47-62 | the `decide` items of the default list are its fourth and fifth |
| DefaultViews.DefaultDriftItems | packages/storage/src/defaults.ts:63-77 | the `drift` items of the default list are its last two |
| DefaultViews.DefaultSelectDo | packages/storage/src/defaults.ts:21-106 | with the defaults, the `do` view shows the three `do` items, shortest first |
| DefaultViews.DefaultSelectDecide | packages/storage/src/defaults.ts:47-62 | with the defaults, the `decide` view shows both `decide` items in list order, since their ranks tie |
| DefaultViews.StartingDoView | apps/mobile/data/app-context.tsx:35-43 | on the starting snapshot the `do` view shows the first three items |
| DefaultViews.DefaultsAdmitted | packages/storage/src/defaults.ts:102-105 | every enabled item passes the empty default blocklists |
| Widget.PickTop | apps/mobile/widgets/widget-snapshot.ts:3-4 | the pick is undefined exactly when no item has the mode, and is otherwise the first item with the mode |
| Widget.GenerateWidgetSnapshot | apps/mobile/widgets/widget-snapshot.ts:6-10 | each slot holds an item of its own mode, if any |
| Widget.PickTopIsFirstOfMode | apps/mobile/widgets/widget-snapshot.ts:3-4 | the pick is the head of the mode's items, so enabled flags, blocklists and caps play no part |
| Widget.PickTopIgnoresOtherModes | apps/mobile/widgets/widget-snapshot.ts:3-4 | inserting or removing an item of another mode leaves the pick unchanged |
| Widget.EmptySnapshot | apps/mobile/widgets/widget-updates.test.ts:73-79 | with no items every slot is undefined |
| Widget.SnapshotPicksFirst | apps/mobile/widgets/widget-updates.test.ts:45-59 | with two `do` items, one `decide` and one `drift`, each slot holds the first of its mode |
| Widget.DefaultWidget | apps/mobile/widgets/widget-snapshot.ts:6-10 | on the default items the widget shows the first item of each mode's block |
| Widget.SnapshotMissingModes | apps/mobile/widgets/widget-updates.test.ts:61-71 | a lone `do` item leaves the other two slots undefined |
| Store.Ids | apps/web/src/data/app-context.tsx:31-33 | the id list follows the item list position by position |
| Store.AddItem | apps/web/src/data/app-context.tsx:25-27 | `addItem` puts the item in front of the list and changes nothing else |
| Store.ReplaceById | apps/web/src/data/app-context.tsx:31-33 | every item with the edited item's id is replaced by it, and every other item stays in place |
| Store.UpdateItem | apps/mobile/data/app-context.tsx:75-82 | `updateItem` keeps the length of the list and touches nothing but the items |
| Store.UpdateAbsentIsNoop | apps/web/src/data/app-context.tsx:28-35 | updating an id that is not in the list changes nothing |
| Store.UpdateKeepsIds | apps/web/src/data/app-context.tsx:28-35 | an update never adds, removes or reorders ids |
| Store.UpdatePlacesItem | apps/web/src/data/app-context.tsx:31-33 | after an update a position holds the edited item exactly when its id matched, or it already held that item |
| Store.UpdateIdempotent | apps/web/src/data/app-context.tsx:28-35 | updating twice with the same item is updating once |
| Store.DeleteItem | apps/web/src/data/app-context.tsx:36-43 | after `deleteItem` no item has the id, and only the items changed |
| Store.DeleteKeepsOthers | apps/mobile/data/app-context.tsx:83-88 | deleting keeps every copy of every item with another id, drops every copy of items with the id, and invents none |
| Store.DeleteKeepsOrder | apps/web/src/data/app-context.tsx:36-43 | deleting distributes over splitting the list in two, so the kept items keep their relative order |
| Store.DeleteAbsentIsNoop | apps/web/src/data/app-context.tsx:36-43 | deleting an id that is not in the list changes nothing |
| Store.DeleteIdempotent | apps/web/src/data/app-context.tsx:36-43 | deleting twice is deleting once |
| Store.AddThenDelete | apps/web/src/data/app-context.tsx:25-43 | adding an item with a fresh id and then deleting that id restores the snapshot |
| Store.AddThenUpdate | apps/web/src/data/app-context.tsx:25-35 | adding a fresh item and then editing it is the same as adding the edited item |
| Store.AddSession | apps/web/src/data/app-context.tsx:44-46 | `addSession` puts the session in front of the sessions and changes nothing else |
| Store.UpdatePreferences | apps/mobile/data/app-context.tsx:92-94 | `updatePreferences` replaces the preference record and changes nothing else |
| Store.UpdatePreferencesLastWins | apps/web/src/data/app-context.tsx:47-49 | of two preference updates, the last one wins |
| Store.ApplySnapshot | apps/web/src/data/helpers.ts:3-9 | each field present in `next` overrides, and each absent field keeps the current value |
| Store.ApplyCompleteReplaces | apps/mobile/data/app-context.tsx:95-97 | spreading a complete snapshot is plain replacement, which is what the mobile `replaceSnapshot` does |
| Store.ApplyEmptyIsIdentity | apps/web/src/data/helpers.ts:8 | spreading an empty object changes nothing |
| Store.ApplyCompose | apps/web/src/data/helpers.ts:8 | spreading two patches in turn is spreading their merge, with the later fields winning |
| Store.ApplyIdempotent | apps/web/src/data/helpers.ts:8 | spreading the same patch twice is spreading it once |
| Store.ClearCategory | apps/mobile/data/app-context.tsx:108-110 | items filed under the category lose it, and every other item is unchanged |
| Store.DeleteCategory | apps/mobile/data/app-context.tsx:102-112 | `deleteCategory` removes the name from the list and leaves no item filed under it |
| Store.DeleteCategoryKeepsRest | apps/mobile/data/app-context.tsx:102-112 | every other category stays listed exactly as often as before, the deleted one not at all, and items change only in their category |
| Store.DeleteCategoryKeepsOrder | apps/mobile/data/app-context.tsx:102-112 | the categories kept from a list split in two are the kept ones of each half, in order |
| Store.DeleteCategoryIdempotent | apps/mobile/data/app-context.tsx:102-112 | deleting a category twice is deleting it once |
| MobileEditor.CycleValue | apps/mobile/app/editor.tsx:35-38 | `cycleValue` is undefined exactly on an empty list, always lands in the list, and starts from the first value when the current one is absent |
| MobileEditor.CycleValueRemainder | apps/mobile/app/editor.tsx:37 | the wrap-around is the remainder `(index + 1) % values.length` |
| MobileEditor.CycleAfterFirst | apps/mobile/app/editor.tsx:36-37 | after the first occurrence of the current value comes the next value, and after the last comes the first |
| MobileEditor.WrapIndex | apps/mobile/app/editor.tsx:37 | for `index + 1` from 0 to the length, only the length wraps to 0 |
| MobileEditor.CycleStep | apps/mobile/app/editor.tsx:35-38 | on a list without repeats, each value is followed by the next position, wrapping at the end |
| MobileEditor.ModeCycle | apps/mobile/app/editor.tsx:154-160 | the mode chip goes do, decide, drift, do, and three presses give back the mode |
| MobileEditor.BucketCycle | apps/mobile/app/editor.tsx:180-186 | the duration chip goes 2m, 10m, 25m, 2m |
| MobileEditor.CycleCategory | apps/mobile/app/editor.tsx:166-172 | the category chip picks a listed category, starts from the first one for an uncategorised item, and gives undefined when no categories exist |
| MobileEditor.PressMode | apps/mobile/app/editor.tsx:154-160 | a mode press moves the mode one step, stamps `updatedAt` and changes nothing else |
| MobileEditor.PressBucket | apps/mobile/app/editor.tsx:180-186 | a duration press moves the bucket one step, stamps `updatedAt` and changes nothing else |
| MobileEditor.PressCategory | apps/mobile/app/editor.tsx:166-172 | a category press sets a listed category or none, stamps `updatedAt` and changes nothing else |
| MobileEditor.ToggleTag | apps/mobile/app/editor.tsx:202-211 | toggling removes a selected tag entirely, appends an unselected one, and keeps the other tags |
| MobileEditor.ToggleTagCount | apps/mobile/app/editor.tsx:202-211 | after a toggle the pressed tag is there once if it was absent and not at all if it was present, and every other tag keeps its number of copies |
| MobileEditor.ToggleTwiceRestores | apps/mobile/app/editor.tsx:206-211 | toggling an unselected tag on and then off restores the tag list |
| MobileEditor.PressTag | apps/mobile/app/editor.tsx:201-213 | a tag press flips whether the tag is present, stamps `updatedAt` and changes nothing else |
| MobileEditor.NewItem | apps/mobile/app/editor.tsx:16-31 | the mobile "Add item" creates the base item, stamping both timestamps with its one clock read |
| WebEditor.CreateEmptyItem | apps/web/src/pages/editor.tsx:15-27 | the web "Add item" creates the base item, with its two clock reads as creation and update stamps |
| WebEditor.EditorsAddSameItem | apps/web/src/pages/editor.tsx:15-27 | both editors create the same item when the clock reads agree |
| WebEditor.TrimAndDropEmpty | apps/web/src/pages/editor.tsx:151-152 | every kept tag is trimmed and non-empty, and never more tags come out than pieces went in |
| WebEditor.ParseTags | apps/web/src/pages/editor.tsx:149-152 | the tag field yields at most one tag per comma-separated piece, each non-empty, trimmed and comma-free |
| WebEditor.DropLeadingSpace | apps/web/src/pages/editor.tsx:145-152 | the space `join(", ")` puts after a comma is removed again by the trim |
| WebEditor.CleanHead | apps/web/src/pages/editor.tsx:151-152 | a clean first piece passes through unchanged |
| WebEditor.ShowTags | apps/web/src/pages/editor.tsx:145 | the tag field shows no tags as the empty text, and comma-free tags with exactly one comma between neighbours |
| WebEditor.ShowTagsSplit | apps/web/src/pages/editor.tsx:145-150 | splitting the shown text at its commas gives one piece per clean tag, each after the first behind a space |
| WebEditor.TrimHead | apps/web/src/pages/editor.tsx:151-152 | a first piece that trims to a non-empty tag yields that tag first |
| WebEditor.TrimAll | apps/web/src/pages/editor.tsx:151-152 | pieces that each trim to a non-empty tag parse to exactly those tags |
| WebEditor.ParseShowRoundTrip | apps/web/src/pages/editor.tsx:145-152 | showing clean tags with `join(", ")` and parsing the text back gives the same tags |
| WebEditor.ParseIdempotent | apps/web/src/pages/editor.tsx:145-152 | parsing what a parse shows gives the same tags |
| WebEditor.DropEmptyPiece | apps/web/src/pages/editor.tsx:151-152 | a piece that is empty or all whitespace contributes no tag |
| WebEditor.StartStepWarning | apps/web/src/pages/editor.tsx:172-176 | "Start step required" shows exactly when the start step is empty |
| WebEditor.WarningCases | apps/web/src/pages/editor.tsx:172-176 | a new item shows the hint, and a whitespace-only step does not |
| MobileSettings.AddCategory | apps/mobile/app/settings.tsx:26-31 | a non-empty, new trimmed name is appended and the field cleared, and otherwise nothing changes |
| MobileSettings.AddCategoryKeepsDistinct | apps/mobile/app/settings.tsx:27-28 | adding never creates a duplicate category |
| MobileSettings.AddCategoryTwice | apps/mobile/app/settings.tsx:27 | adding the same name again leaves the list as it is |
| MobileSettings.SaveEdit | apps/mobile/app/settings.tsx:40-50 | saving an edit renames only the first occurrence, only for a non-empty name and value, and always ends editing |
| MobileSettings.RenameBack | apps/mobile/app/settings.tsx:40-50 | renaming a category to a fresh name and back restores the list |
| MobileSettings.RenameCanDuplicate | apps/mobile/app/settings.tsx:41-46 | renaming to an existing name is accepted and leaves a duplicate |
| MobileSettings.SetOrdering | apps/mobile/app/settings.tsx:440 | the ordering switch sets the ordering and keeps the rest of the preferences |
| MobileSettings.SetOrderingLastWins | apps/mobile/app/settings.tsx:440 | the last ordering press wins, and pressing the current option changes nothing |
| MobileSettings.ImportAlert | apps/mobile/app/settings.tsx:371-374 | the "Success" alert appears exactly when the file was accepted |
| MobileSettings.ImportCheck | apps/mobile/app/settings.tsx:361-371 | a file is accepted exactly when it is an object whose `items` is an array and whose preferences, sessions and rules are absent or falsy; a `null` document fails on the property read |
| MobileSettings.ImportExamples | apps/mobile/app/settings.tsx:363-369 | items alone pass, items with preferences or sessions fail, a `null` rules field passes, and a bare array fails |
| WebSettings.UpdateCaps | apps/web/src/pages/settings.tsx:40-45 | each cap in the patch overrides, each absent cap is kept, and the rest of the preferences are unchanged |
| WebSettings.CapInputSetsOwnCap | apps/web/src/pages/settings.tsx:54-77 | a cap input sets its own mode's cap and no other |
| WebSettings.CapInputKeepsOtherSelections | apps/web/src/pages/settings.tsx:40-45 | changing one mode's cap does not change the selection of another mode |
| WebSettings.SetSmallWidgetMode | apps/web/src/pages/settings.tsx:83-90 | the widget picker sets the small widget's mode and changes nothing else |
| WebSettings.WidgetModeKeepsSelections | apps/web/src/pages/settings.tsx:83-90 | the widget mode plays no part in any selection |
| WebSettings.ExportSnapshot | apps/web/src/pages/settings.tsx:24-29 | the export holds the items, rules, sessions and preferences of the state |
| WebSettings.ExportIgnoresViewState | apps/web/src/pages/settings.tsx:23-29 | the current view mode and decision are not exported |
| WebSettings.HandleUpload | apps/web/src/pages/settings.tsx:31-38 | with no file the upload does nothing, and a parsed file goes through `replaceSnapshot` |
| WebSettings.UploadExportRoundTrip | apps/web/src/pages/settings.tsx:24-38 | uploading an exported file restores the exported snapshot |
| WebSettings.UploadItemsOnly | apps/web/src/pages/settings.tsx:31-38 | a file holding only `items` replaces the items and keeps the rest |
| Theme.ResolveTheme | apps/mobile/data/theme-context.tsx:49-56 | the dark theme is used exactly in dark mode, or in system mode when the system scheme is dark |
| Theme.ResolveCases | apps/mobile/data/theme-context.tsx:49-56 | explicit modes ignore the system, and system mode agrees with the explicit mode the scheme names |
| Theme.InitialState | apps/mobile/data/theme-context.tsx:25 | the provider starts in system mode |
| Theme.LoadSaved | apps/mobile/data/theme-context.tsx:29-39 | a saved mode replaces the current one, and with none saved the mode stays |
| Theme.SetMode | apps/mobile/data/theme-context.tsx:41-47 | `setMode` changes the mode and saves it |
| Theme.SetModeSurvivesRestart | apps/mobile/data/theme-context.tsx:25-47 | given a store that returns the last save, a fresh provider loads the chosen mode back |
| Theme.FreshFollowsSystem | apps/mobile/data/theme-context.tsx:25-56 | with nothing saved, the theme follows the system scheme |

## Left out

- Rendering, navigation, React state and effects, `persist`/`saveSnapshot`, the
  storage layer, dialogs, and the widget's native code are not modelled. Each
  reducer is the pure step from one snapshot to the next.
- Unknown `ordering` values are not modelled. The fallback `return` in
  `orderItems` (selector.ts line 15) refers to `order` outside its scope, so
  no ordering value reaches it in a well-typed program.
- Lower-casing covers ASCII letters only. Unicode case mapping is not modelled.
- Parsing ISO-8601 timestamps is not modelled. `updatedAt` is already an
  instant, so an unparseable timestamp (NaN in the comparator) is not
  represented.
- Caps are integers. `Number(...)` of a cap input yielding NaN or a fraction is
  not modelled.
- Rule conditions are a map from strings to text, integer or boolean values.
  Floating-point condition values are not modelled.
- `setMode` and `setActiveDecision` of the app contexts, and `updateCategories`,
  are plain state setters and are not modelled separately. `handleEditCategory`
  only opens the rename input, and the rename form's `editing` field stands
  for it.
- The text inputs of both editors and the select boxes of the web editor set
  one field and stamp `updatedAt`. They are not modelled apart from the
  chips that compute a value.
- The mobile export (`JSON.stringify({ items })` and sharing) and the file
  reading and `JSON.parse` of both imports are not modelled. The mobile import
  is modelled as its shape check: on success it only shows an alert and writes
  nothing.
- The fallback `preferences || { ordering: "duration" }` on the mobile settings
  screen is not modelled, because the preference record is always present here.
- Theme.SetModeSurvivesRestart: holds only for a theme store that returns the
  last mode saved to it, which the `saved` slot assumes. `loadThemePreference`
  and `saveThemePreference` are not part of this model, and the mobile
  storage.ts that holds the snapshot keeps it only in memory.
- Theme loading is modelled as a step on the state. The asynchronous order of
  load and `setMode` is not.
- The web upload spreads whatever `JSON.parse` returns, unchecked (a `null`
  `items`, an array, a number). `WebSettings.HandleUpload` takes the parsed file
  as a well-typed partial snapshot, so such files are not represented.
- WebEditor.ParseTags: the round trip is proved for tags that are non-empty,
  trimmed and free of commas. Other tag lists do not survive the field, and
  the model states no more about them.

=== FILE: default_views.dfy ===
/**
 What the selection logic shows on the default data: each mode's block of
 the default list, and the `do` and `decide` views under the default
 preferences.
 */
module DefaultViews {
  import opened Types
  import opened Seqs
  import opened Selector
  import opened Defaults

  /** On the starting snapshot the `do` view shows the three default `do` items, shortest first. */
  lemma StartingDoView(itemIds: seq<string>, ruleId: string, created: seq<Instant>, updated: seq<Instant>)
    requires |itemIds| == |created| == |updated| == 7
    ensures var s := DefaultSnapshot(itemIds, ruleId, created, updated);
            SelectMenuItems(s.items, Do, s.preferences) == s.items[..3]
  {
    DefaultItemsLayout(itemIds, created, updated);
    DefaultSelectDo(DefaultItems(itemIds, created, updated));
  }

  /** When exactly the positions `lo..hi` hold mode `m`, the items of mode `m` are that block. */
  lemma OfModeBlock(d: seq<MenuItem>, m: Mode, lo: nat, hi: nat)
    requires lo <= hi <= |d|
    requires forall i :: 0 <= i < lo ==> d[i].mode != m
    requires forall i :: lo <= i < hi ==> d[i].mode == m
    requires forall i :: hi <= i < |d| ==> d[i].mode != m
    ensures OfMode(d, m) == d[lo..hi]
  {
    FilterBlock(HasMode(m), d, lo, hi);
  }

  /** The default list holds three `do` items, first in the list, all enabled, in bucket order 2m, 10m, 25m. */
  lemma DefaultDoItems(d: seq<MenuItem>)
    requires DefaultLayout(d)
    ensures OfMode(d, Do) == d[..3]
    ensures forall i :: 0 <= i < 3 ==> d[i].enabled
    ensures Rank(d[0].durationBucket) < Rank(d[1].durationBucket) < Rank(d[2].durationBucket)
  {
    OfModeBlock(d, Do, 0, 3);
  }

  /** The default list holds two enabled `decide` items, right after the `do` items. */
  lemma DefaultDecideItems(d: seq<MenuItem>)
    requires DefaultLayout(d)
    ensures OfMode(d, Decide) == d[3..5]
    ensures d[3].enabled && d[4].enabled
  {
    OfModeBlock(d, Decide, 3, 5);
  }

  /** The default list ends with two enabled `drift` items. */
  lemma DefaultDriftItems(d: seq<MenuItem>)
    requires DefaultLayout(d)
    ensures OfMode(d, Drift) == d[5..7]
    ensures d[5].enabled && d[6].enabled
  {
    OfModeBlock(d, Drift, 5, 7);
  }

  /** Selecting `do` with the default preferences yields the three default `do` items, 2m, 10m, 25m. */
  lemma DefaultSelectDo(d: seq<MenuItem>)
    requires DefaultLayout(d)
    ensures SelectMenuItems(d, Do, DefaultPreferences()) == d[..3]
  {
    DefaultDoItems(d);
    DefaultsAdmitted(d[..3]);
    SelectUnfiltered(d, Do, DefaultPreferences());
  }

  /** Selecting `decide` with the defaults yields both `decide` items in input order: their ranks are equal. */
  lemma DefaultSelectDecide(d: seq<MenuItem>)
    requires DefaultLayout(d)
    ensures SelectMenuItems(d, Decide, DefaultPreferences()) == [d[3], d[4]]
  {
    DefaultDecideItems(d);
    assert d[3..5] == [d[3], d[4]];
    DefaultsAdmitted(d[3..5]);
    SelectUnfiltered(d, Decide, DefaultPreferences());
  }

  /** Enabled items pass the empty default blocklists. */
  lemma DefaultsAdmitted(s: seq<MenuItem>)
    requires forall i :: 0 <= i < |s| ==> s[i].enabled
    ensures forall i :: 0 <= i < |s| ==> Admitted(s[i], DefaultPreferences().blocklists)
  {
  }
}

=== FILE: defaults.dfy ===
/**
 The built-in data every client starts from: the base item record, the
 seven default menu items and the default preferences. Identifiers and the
 clock reads, which the source draws from `uuid()` and `now()`, are
 parameters; every item reads the clock twice, once for each timestamp.
 */
module Defaults {
  import opened Types

  /** `baseItem` with no overrides, given its two clock reads. */
  function BaseItem(id: string, created: Instant, updated: Instant): (r: MenuItem)
    ensures r.id == id && r.createdAt == created && r.updatedAt == updated
    ensures r.mode == Do && r.title == "" && r.startStep == "" && r.durationBucket == TwoMin
    ensures r.category == Some("career") && r.tags == [] && r.frictionScore == 1 && r.enabled
  {
    MenuItem(id, Do, "", "", TwoMin, Some("career"), [], 1, true, created, updated)
  }

  /** `baseItem` with the fields the default list overrides. */
  function DefaultItem(id: string, created: Instant, updated: Instant, mode: Mode, title: string,
                       startStep: string, bucket: DurationBucket, category: string, friction: int): (r: MenuItem)
    ensures r.enabled && r.tags == [] && r.createdAt == created && r.updatedAt == updated
    ensures r.id == id && r.mode == mode && r.durationBucket == bucket && r.category == Some(category)
  {
    BaseItem(id, created, updated).(mode := mode, title := title, startStep := startStep,
                       durationBucket := bucket, category := Some(category), frictionScore := friction)
  }

  /** `defaultItems`, given the seven identifiers `uuid()` hands out and each item's two clock reads. */
  function DefaultItems(ids: seq<string>, created: seq<Instant>, updated: seq<Instant>): (r: seq<MenuItem>)
    requires |ids| == |created| == |updated| == 7
    ensures |r| == 7
    ensures forall i :: 0 <= i < 7 ==> r[i].id == ids[i] && r[i].enabled && r[i].tags == []
    ensures forall i :: 0 <= i < 7 ==> r[i].createdAt == created[i] && r[i].updatedAt == updated[i]
  {
    [ DefaultItem(ids[0], created[0], updated[0], Do, "Write the next-step plan", "Open repo notes → write 3 bullets", TwoMin, "career", 1),
      DefaultItem(ids[1], created[1], updated[1], Do, "Seed tomorrow's first block", "Open calendar → reserve 60 minutes", TenMin, "tomorrow", 2),
      DefaultItem(ids[2], created[2], updated[2], Do, "Career-capital micro-rep", "Open PR stub → add 1 TODO", TwentyFiveMin, "career", 3),
      DefaultItem(ids[3], created[3], updated[3], Decide, "Pick the next constraint", "Choose time/energy/location", TwoMin, "career", 1),
      DefaultItem(ids[4], created[4], updated[4], Decide, "Pick the next deliverable", "Select the next artifact", TwoMin, "career", 1),
      DefaultItem(ids[5], created[5], updated[5], Drift, "10-minute walk", "Put on shoes → go outside", TenMin, "drift", 1),
      DefaultItem(ids[6], created[6], updated[6], Drift, "Watch one saved video", "Open watchlist → pick 1", TwentyFiveMin, "drift", 2) ]
  }

  /** `defaultPreferences`. */
  function DefaultPreferences(): (p: Preference)
    ensures p.caps == Caps(5, 3, 3) && p.ordering == ByDuration
    ensures p.blocklists.tags == [] && p.blocklists.keywords == []
  {
    Preference(Caps(5, 3, 3), ByDuration, WidgetConfig(Do, [Do, Decide, Drift]), Blocklists([], []))
  }

  /** `defaultRules`: a single rule that shows a mode on a new tab, with no conditions. */
  function DefaultRules(id: string): (r: seq<Rule>)
    ensures |r| == 1 && r[0].id == id && r[0].conditions == map[]
  {
    [Rule(id, NewTab, map[], ShowMode)]
  }

  /** The snapshot a client starts from before anything is loaded: defaults throughout, no sessions. */
  function DefaultSnapshot(itemIds: seq<string>, ruleId: string, created: seq<Instant>, updated: seq<Instant>): (s: Snapshot)
    requires |itemIds| == |created| == |updated| == 7
    ensures |s.items| == 7 && |s.rules| == 1 && s.sessions == []
    ensures s.preferences.caps == Caps(5, 3, 3)
  {
    Snapshot(DefaultItems(itemIds, created, updated), DefaultRules(ruleId), [], DefaultPreferences())
  }

  /** The shape of the default list: modes, buckets and the enabled flag, position by position. */
  predicate DefaultLayout(d: seq<MenuItem>) {
    && |d| == 7
    && (forall i :: 0 <= i < 7 ==> d[i].enabled)
    && d[0].mode == d[1].mode == d[2].mode == Do
    && d[3].mode == d[4].mode == Decide
    && d[5].mode == d[6].mode == Drift
    && d[0].durationBucket == TwoMin && d[1].durationBucket == TenMin
    && d[2].durationBucket == TwentyFiveMin
    && d[3].durationBucket == d[4].durationBucket == TwoMin
  }

  lemma DefaultItemsLayout(ids: seq<string>, created: seq<Instant>, updated: seq<Instant>)
    requires |ids| == |created| == |updated| == 7
    ensures DefaultLayout(DefaultItems(ids, created, updated))
  {
  }
}

=== FILE: mobile_editor.dfy ===
/**
 The mobile item editor: a new item from the "Add item" button, the chips
 that cycle an item's mode, duration and category, and the category chips
 that toggle a tag. Each press builds the edited item that the editor hands
 to `updateItem`; the press instant is a parameter.
 */
module MobileEditor {
  import opened Types
  import opened Seqs
  import opened Defaults
  import opened Store

  /** The order the mode chip cycles through. */
  const Modes: seq<Mode> := [Do, Decide, Drift]

  /** The order the duration chip cycles through. */
  const Buckets: seq<DurationBucket> := [TwoMin, TenMin, TwentyFiveMin]

  /**
   `cycleValue`: the value after the first occurrence of `current`, wrapping
   to the front; the first value when `current` is absent; `None` (JavaScript
   `undefined`) when there are no values.
   */
  function CycleValue<T(==)>(values: seq<T>, current: T): (r: Option<T>)
    ensures r.None? <==> |values| == 0
    ensures r.Some? ==> r.value in values
    ensures current !in values && |values| > 0 ==> r == Some(values[0])
  {
    var index := IndexOf(values, current);
    if |values| == 0 then None
    else Some(values[if index + 1 == |values| then 0 else index + 1])
  }

  /** The wrap above is the source's remainder `(index + 1) % values.length`: `index + 1` lies in `0..|values|`. */
  lemma CycleValueRemainder<T>(values: seq<T>, current: T)
    requires |values| > 0
    ensures CycleValue(values, current) == Some(values[(IndexOf(values, current) + 1) % |values|])
  {
    WrapIndex(IndexOf(values, current) + 1, |values|);
  }

  /** When `current` first occurs at `i`, the cycle gives the value after `i`, wrapping from the last to the first. */
  lemma CycleAfterFirst<T>(values: seq<T>, current: T, i: nat)
    requires i < |values| && values[i] == current && current !in values[..i]
    ensures CycleValue(values, current) == Some(values[if i + 1 == |values| then 0 else i + 1])
  {
    IndexOfFirst(values, current, i);
  }

  /** `k % n` for `k` in `0..n`: only `n` itself wraps. */
  lemma WrapIndex(k: int, n: int)
    requires 0 <= k <= n && n > 0
    ensures k % n == if k == n then 0 else k
  {
  }

  /** The cycle step on a list without repeats. */
  lemma CycleStep<T>(values: seq<T>, i: nat)
    requires Distinct(values) && i < |values|
    ensures CycleValue(values, values[i]) == Some(values[if i + 1 == |values| then 0 else i + 1])
  {
    assert values[i] !in values[..i];
    CycleAfterFirst(values, values[i], i);
  }

  /** The mode order as a table: do, decide, drift, then do again. */
  function NextMode(m: Mode): Mode {
    match m
    case Do => Decide
    case Decide => Drift
    case Drift => Do
  }

  /** The mode chip follows the table, and three presses give back the mode. */
  lemma ModeCycle(m: Mode)
    ensures CycleValue(Modes, m) == Some(NextMode(m))
    ensures NextMode(NextMode(NextMode(m))) == m
  {
    assert Distinct(Modes);
    match m
    case Do => CycleStep(Modes, 0);
    case Decide => CycleStep(Modes, 1);
    case Drift => CycleStep(Modes, 2);
  }

  /** The duration order as a table: 2m, 10m, 25m, then 2m again. */
  function NextBucket(b: DurationBucket): DurationBucket {
    match b
    case TwoMin => TenMin
    case TenMin => TwentyFiveMin
    case TwentyFiveMin => TwoMin
  }

  /** The duration chip follows the table. */
  lemma BucketCycle(b: DurationBucket)
    ensures CycleValue(Buckets, b) == Some(NextBucket(b))
  {
    assert Distinct(Buckets);
    match b
    case TwoMin => CycleStep(Buckets, 0);
    case TenMin => CycleStep(Buckets, 1);
    case TwentyFiveMin => CycleStep(Buckets, 2);
  }

  /** The category chip: `null` is never in the list, so an uncategorised item gets the first category. */
  function CycleCategory(categories: seq<string>, current: Option<string>): (r: Option<string>)
    ensures |categories| == 0 ==> r.None?
    ensures |categories| > 0 && (current.None? || current.value !in categories) ==> r == Some(categories[0])
    ensures r.Some? ==> r.value in categories
  {
    match current
    case None => if |categories| == 0 then None else Some(categories[0])
    case Some(c) => CycleValue(categories, c)
  }

  /** Pressing the mode chip. */
  function PressMode(item: MenuItem, now: Instant): (r: MenuItem)
    ensures r.mode == NextMode(item.mode)
    ensures r.(mode := item.mode, updatedAt := item.updatedAt) == item && r.updatedAt == now
  {
    ModeCycle(item.mode);
    item.(mode := CycleValue(Modes, item.mode).value, updatedAt := now)
  }

  /** Pressing the duration chip. */
  function PressBucket(item: MenuItem, now: Instant): (r: MenuItem)
    ensures r.durationBucket == NextBucket(item.durationBucket)
    ensures r.(durationBucket := item.durationBucket, updatedAt := item.updatedAt) == item && r.updatedAt == now
  {
    BucketCycle(item.durationBucket);
    item.(durationBucket := CycleValue(Buckets, item.durationBucket).value, updatedAt := now)
  }

  /** Pressing the category chip. */
  function PressCategory(item: MenuItem, categories: seq<string>, now: Instant): (r: MenuItem)
    ensures r.category.Some? ==> r.category.value in categories
    ensures r.(category := item.category, updatedAt := item.updatedAt) == item && r.updatedAt == now
  {
    item.(category := CycleCategory(categories, item.category), updatedAt := now)
  }

  /** The tag toggle: drop every copy of a selected tag, append an unselected one. */
  function ToggleTag(tags: seq<string>, c: string): (r: seq<string>)
    ensures c in tags ==> c !in r
    ensures c !in tags ==> r == tags + [c]
    ensures forall i :: 0 <= i < |tags| && tags[i] != c ==> tags[i] in r
    ensures forall i :: 0 <= i < |r| ==> r[i] == c || r[i] in tags
  {
    if c in tags then
      var r := Filter(IsNot(c), tags);
      FilterMultiset(IsNot(c), tags);
      assert forall i :: 0 <= i < |r| ==> r[i] in multiset(tags);
      assert forall i :: 0 <= i < |tags| && tags[i] != c ==> tags[i] in r by {
        forall i | 0 <= i < |tags| && tags[i] != c
          ensures tags[i] in r
        {
          FilterKeeps(IsNot(c), tags, i);
        }
      }
      r
    else tags + [c]
  }

  /** The toggle as counts: the pressed tag ends up once or not at all, and every other tag keeps its copies. */
  lemma ToggleTagCount(tags: seq<string>, c: string)
    ensures forall t :: multiset(ToggleTag(tags, c))[t] ==
                          if t != c then multiset(tags)[t] else if c in tags then 0 else 1
  {
    forall t
      ensures multiset(ToggleTag(tags, c))[t] == if t != c then multiset(tags)[t] else if c in tags then 0 else 1
    {
      if c in tags {
        FilterCount(IsNot(c), tags, t);
      } else {
        assert multiset(tags)[c] == 0;
      }
    }
  }

  /** Toggling an unselected tag on and off again gives back the tag list. */
  lemma ToggleTwiceRestores(tags: seq<string>, c: string)
    requires c !in tags
    ensures ToggleTag(ToggleTag(tags, c), c) == tags
  {
    FilterConcat(IsNot(c), tags, [c]);
    FilterAll(IsNot(c), tags);
  }

  /** Pressing a category chip under the tags. */
  function PressTag(item: MenuItem, c: string, now: Instant): (r: MenuItem)
    ensures (c in r.tags) == (c !in item.tags)
    ensures r.(tags := item.tags, updatedAt := item.updatedAt) == item && r.updatedAt == now
  {
    item.(tags := ToggleTag(item.tags, c), updatedAt := now)
  }

  /** `handleAdd`'s new item; its id, `item-` and the clock in milliseconds, is a parameter. */
  function NewItem(id: string, now: Instant): (r: MenuItem)
    ensures r.createdAt == now && r.updatedAt == now
    ensures r == BaseItem(id, now, now)
  {
    MenuItem(id, Do, "", "", TwoMin, Some("career"), [], 1, true, now, now)
  }
}

=== FILE: mobile_settings.dfy ===
/**
 The mobile settings screen: the category list editor (add, rename), the
 ordering switch and the shape check of an imported JSON file. Dialogs,
 focus handling and file pickers are left out; each handler is the pure step
 on the state it changes.
 */
module MobileSettings {
  import opened Types
  import opened Seqs
  import opened Text

  /** The category list and the text of the "Add new category" field. */
  datatype CategoryForm = CategoryForm(categories: seq<string>, draft: string)

  /** `handleAddCategory`: append the trimmed draft when it is non-empty and new, and clear the field. */
  function AddCategory(f: CategoryForm): (r: CategoryForm)
    ensures Trim(f.draft) != "" && Trim(f.draft) !in f.categories ==>
              r.categories == f.categories + [Trim(f.draft)] && r.draft == ""
    ensures Trim(f.draft) == "" || Trim(f.draft) in f.categories ==> r == f
  {
    var name := Trim(f.draft);
    if name != "" && name !in f.categories then CategoryForm(f.categories + [name], "") else f
  }

  /** Adding never creates a duplicate. */
  lemma AddCategoryKeepsDistinct(f: CategoryForm)
    requires Distinct(f.categories)
    ensures Distinct(AddCategory(f).categories)
  {
    var r := AddCategory(f).categories;
    if r != f.categories {
      forall i, j | 0 <= i < j < |r|
        ensures r[i] != r[j]
      {
        if j == |r| - 1 {
          assert r[i] == f.categories[i];
        }
      }
    }
  }

  /** Typing the same name again and pressing "Add" leaves the list as it is. */
  lemma AddCategoryTwice(f: CategoryForm)
    ensures AddCategory(CategoryForm(AddCategory(f).categories, f.draft)).categories == AddCategory(f).categories
  {
    var name := Trim(f.draft);
    if name != "" && name !in f.categories {
      assert (f.categories + [name])[|f.categories|] == name;
    }
  }

  /** The category being renamed (`null` when none) and the text of its input. */
  datatype RenameForm = RenameForm(categories: seq<string>, editing: Option<string>, value: string)

  /**
   `handleSaveEdit`: when a non-empty name is being edited and the trimmed
   value is non-empty, the first position holding the name takes the trimmed
   value; editing ends in every case.
   */
  function SaveEdit(f: RenameForm): (r: RenameForm)
    ensures r.editing.None? && r.value == f.value
    ensures |r.categories| == |f.categories|
    ensures f.editing.None? || f.editing.value == "" || Trim(f.value) == "" || f.editing.value !in f.categories
            ==> r.categories == f.categories
    ensures f.editing.Some? && f.editing.value != "" && Trim(f.value) != "" && f.editing.value in f.categories
            ==> exists i :: 0 <= i < |f.categories| && f.categories[i] == f.editing.value
                            && f.editing.value !in f.categories[..i]
                            && r.categories == f.categories[i := Trim(f.value)]
  {
    if f.editing.Some? && f.editing.value != "" && Trim(f.value) != "" then
      var index := IndexOf(f.categories, f.editing.value);
      if index != -1 then RenameForm(f.categories[index := Trim(f.value)], None, f.value)
      else RenameForm(f.categories, None, f.value)
    else RenameForm(f.categories, None, f.value)
  }

  /** A name that the rename input keeps as typed: non-empty and trimmed. */
  predicate CleanName(s: string) {
    s != "" && IsTrimmed(s)
  }

  /** Renaming `a` to a new name `b` and then `b` back to `a` restores the list. */
  lemma RenameBack(categories: seq<string>, a: string, b: string)
    requires CleanName(a) && CleanName(b)
    requires a in categories && b !in categories
    ensures SaveEdit(RenameForm(SaveEdit(RenameForm(categories, Some(a), b)).categories, Some(b), a)).categories == categories
  {
    var i := IndexOf(categories, a);
    var once := categories[i := b];
    assert once == SaveEdit(RenameForm(categories, Some(a), b)).categories;
    assert b !in once[..i] by {
      assert once[..i] == categories[..i];
    }
    IndexOfFirst(once, b, i);
  }

  /** Renaming to a name already in the list is not refused: the list then holds it twice. */
  lemma RenameCanDuplicate(a: string, b: string)
    requires CleanName(a) && CleanName(b) && a != b
    ensures SaveEdit(RenameForm([a, b], Some(a), b)).categories == [b, b]
  {
    assert IndexOf([a, b], a) == 0;
  }

  /** The ordering switch: `updatePreferences({ ...preferences, ordering: option })`. */
  function SetOrdering(p: Preference, option: Ordering): (r: Preference)
    ensures r.ordering == option
    ensures r.(ordering := p.ordering) == p
  {
    p.(ordering := option)
  }

  /** Pressing the selected option again changes nothing, and the last press wins. */
  lemma SetOrderingLastWins(p: Preference, a: Ordering, b: Ordering)
    ensures SetOrdering(SetOrdering(p, a), b) == SetOrdering(p, b)
    ensures SetOrdering(p, p.ordering) == p
  {
  }

  /** A value `JSON.parse` can return; numbers are integers here. */
  datatype Json =
    | JNull
    | JBool(b: bool)
    | JNumber(n: int)
    | JString(s: string)
    | JArray(elems: seq<Json>)
    | JObject(fields: map<string, Json>)

  /** JavaScript truthiness of a present value. */
  predicate Truthy(v: Json) {
    match v
    case JNull => false
    case JBool(b) => b
    case JNumber(n) => n != 0
    case JString(s) => s != ""
    case JArray(_) => true
    case JObject(_) => true
  }

  /** `parsed[key]`: an object's own field, `None` for `undefined`; on `null` the access throws. */
  function Field(v: Json, key: string): Option<Json>
    requires v != JNull
  {
    if v.JObject? && key in v.fields then Some(v.fields[key]) else None
  }

  /** Truthiness of `parsed[key]`, where `undefined` is falsy. */
  predicate FieldTruthy(v: Json, key: string)
    requires v != JNull
  {
    var f := Field(v, key);
    f.Some? && Truthy(f.value)
  }

  /** How `handleImport` ends for a parsed file. */
  datatype ImportOutcome =
    | Accepted
    | NullDocument
    | ItemsNotArray
    | NotItemsOnly

  /**
   The alert shown for each outcome, as title and message. A property read on
   `null` raises a `TypeError` whose message the JavaScript engine words; it is
   a parameter.
   */
  function ImportAlert(o: ImportOutcome, engineMessage: string): (alert: (string, string))
    ensures alert.0 == "Success" <==> o == Accepted
  {
    match o
    case Accepted => ("Success", "Items imported successfully")
    case NullDocument => ("Error", engineMessage)
    case ItemsNotArray => ("Error", "Invalid JSON: items must be an array")
    case NotItemsOnly => ("Error", "Invalid JSON: only items allowed, no preferences/sessions/rules")
  }

  /** The two checks of `handleImport`, in order. */
  function ImportCheck(parsed: Json): (o: ImportOutcome)
    ensures o == Accepted <==>
              parsed.JObject? && "items" in parsed.fields && parsed.fields["items"].JArray?
              && (forall k :: k in ["preferences", "sessions", "rules"] && k in parsed.fields ==> !Truthy(parsed.fields[k]))
    ensures o == ItemsNotArray <==> parsed != JNull && !(parsed.JObject? && "items" in parsed.fields && parsed.fields["items"].JArray?)
    ensures o == NullDocument <==> parsed == JNull
  {
    if parsed == JNull then NullDocument
    else
      var items := Field(parsed, "items");
      if !(items.Some? && Truthy(items.value)) || !items.value.JArray? then ItemsNotArray
      else if FieldTruthy(parsed, "preferences") || FieldTruthy(parsed, "sessions") || FieldTruthy(parsed, "rules") then NotItemsOnly
      else Accepted
  }

  /** A file holding only an item array passes; one that also holds preferences is refused even with valid items. */
  lemma ImportExamples(items: seq<Json>, prefs: map<string, Json>)
    ensures ImportCheck(JObject(map["items" := JArray(items)])) == Accepted
    ensures ImportCheck(JObject(map["items" := JArray(items), "preferences" := JObject(prefs)])) == NotItemsOnly
    ensures ImportCheck(JObject(map["items" := JArray(items), "sessions" := JArray([])])) == NotItemsOnly
    ensures ImportCheck(JObject(map["items" := JArray(items), "rules" := JNull])) == Accepted
    ensures ImportCheck(JArray(items)) == ItemsNotArray
  {
    var withNullRules := map["items" := JArray(items), "rules" := JNull];
    assert forall k :: k in ["preferences", "sessions", "rules"] && k in withNullRules ==> k == "rules";
  }
}

=== FILE: selector.dfy ===
/**
 `selectMenuItems`: the items shown for a mode. It keeps the items of that
 mode, drops disabled and blocklisted ones, orders the rest stably and cuts
 the result to the mode's cap with `slice(0, cap)` semantics.
 */
module Selector {
  import opened Types
  import opened Seqs
  import opened Text
  import opened StableSort

  /** Some tag of the item is on the tag blocklist. */
  predicate TagBlocked(item: MenuItem, bl: Blocklists) {
    exists i :: 0 <= i < |item.tags| && item.tags[i] in bl.tags
  }

  /** The lower-cased text keywords are searched in: title, one space, start step. */
  function SearchText(item: MenuItem): string {
    Lower(item.title + " " + item.startStep)
  }

  /** The search text contains some lower-cased blocklisted keyword. */
  predicate KeywordBlocked(item: MenuItem, bl: Blocklists) {
    exists i :: 0 <= i < |bl.keywords| && Contains(SearchText(item), Lower(bl.keywords[i]))
  }

  /** The per-item test of `applyBlocklists`. */
  predicate Admitted(item: MenuItem, bl: Blocklists) {
    item.enabled && !TagBlocked(item, bl) && !KeywordBlocked(item, bl)
  }

  function IsAdmitted(bl: Blocklists): MenuItem -> bool {
    (x: MenuItem) => Admitted(x, bl)
  }

  function HasMode(m: Mode): MenuItem -> bool {
    (x: MenuItem) => x.mode == m
  }

  /** The items of mode `m`, in input order. */
  function OfMode(items: seq<MenuItem>, m: Mode): (r: seq<MenuItem>)
    ensures forall i :: 0 <= i < |r| ==> r[i].mode == m
    ensures forall i :: 0 <= i < |items| && items[i].mode == m ==> items[i] in r
    ensures multiset(r) <= multiset(items)
  {
    var r := Filter(HasMode(m), items);
    FilterMultiset(HasMode(m), items);
    forall i | 0 <= i < |items| && items[i].mode == m
      ensures items[i] in r
    {
      FilterKeeps(HasMode(m), items, i);
    }
    r
  }

  /** The mode filter keeps every copy of an item of the mode and no copy of any other item. */
  lemma OfModeCount(items: seq<MenuItem>, m: Mode)
    ensures forall x :: multiset(OfMode(items, m))[x] == if x.mode == m then multiset(items)[x] else 0
  {
    forall x
      ensures multiset(OfMode(items, m))[x] == if x.mode == m then multiset(items)[x] else 0
    {
      FilterCount(HasMode(m), items, x);
    }
  }

  /** `applyBlocklists`: keeps exactly the admitted items, in input order. */
  function ApplyBlocklists(items: seq<MenuItem>, p: Preference): (r: seq<MenuItem>)
    ensures forall i :: 0 <= i < |r| ==> Admitted(r[i], p.blocklists)
    ensures forall i :: 0 <= i < |items| && Admitted(items[i], p.blocklists) ==> items[i] in r
    ensures multiset(r) <= multiset(items)
  {
    var r := Filter(IsAdmitted(p.blocklists), items);
    FilterMultiset(IsAdmitted(p.blocklists), items);
    forall i | 0 <= i < |items| && Admitted(items[i], p.blocklists)
      ensures items[i] in r
    {
      FilterKeeps(IsAdmitted(p.blocklists), items, i);
    }
    r
  }

  /** The blocklist filter keeps every copy of an admitted item and no copy of any other item. */
  lemma ApplyBlocklistsCount(items: seq<MenuItem>, p: Preference)
    ensures forall x :: multiset(ApplyBlocklists(items, p))[x] == if Admitted(x, p.blocklists) then multiset(items)[x] else 0
  {
    forall x
      ensures multiset(ApplyBlocklists(items, p))[x] == if Admitted(x, p.blocklists) then multiset(items)[x] else 0
    {
      FilterCount(IsAdmitted(p.blocklists), items, x);
    }
  }

  /** The items that pass both filters, before ordering. */
  function Candidates(items: seq<MenuItem>, m: Mode, p: Preference): seq<MenuItem> {
    ApplyBlocklists(OfMode(items, m), p)
  }

  /**
   The end index `slice(0, end)` uses on a sequence of length `len`: a
   negative end counts back from the length (section 23.1.3.28 of
   ECMA-262), a large one is clamped to the length.
   */
  function SliceEnd(len: nat, end: int): (n: nat)
    ensures n <= len
    ensures 0 <= end ==> n == if end < len then end else len
    ensures end < 0 ==> n == if len + end < 0 then 0 else len + end
  {
    if end < 0 then (if len + end < 0 then 0 else len + end)
    else if end < len then end
    else len
  }

  /** Every candidate has the requested mode and is admitted. */
  lemma CandidatesSound(items: seq<MenuItem>, m: Mode, p: Preference, x: MenuItem)
    requires x in multiset(Candidates(items, m, p))
    ensures x.mode == m && Admitted(x, p.blocklists)
  {
    var f := Candidates(items, m, p);
    assert x in f;
    var i :| 0 <= i < |f| && f[i] == x;
    assert x in OfMode(items, m) by {
      assert x in multiset(OfMode(items, m));
    }
  }

  /** A prefix of the ordered candidates has only sound items, sorted, drawn from the input. */
  lemma OrderedPrefixSound(items: seq<MenuItem>, m: Mode, p: Preference, n: nat)
    requires n <= |Candidates(items, m, p)|
    ensures var r := OrderItems(p.ordering, Candidates(items, m, p))[..n];
            && (forall i :: 0 <= i < |r| ==> r[i].mode == m && Admitted(r[i], p.blocklists))
            && multiset(r) <= multiset(items)
            && Sorted(p.ordering, r)
  {
    var f := Candidates(items, m, p);
    var o := OrderItems(p.ordering, f);
    var r := o[..n];
    PrefixMultiset(o, n);
    forall i | 0 <= i < |r|
      ensures r[i].mode == m && Admitted(r[i], p.blocklists)
    {
      assert r[i] in multiset(o);
      CandidatesSound(items, m, p, r[i]);
    }
    CandidatesFromInput(items, m, p);
  }

  /** A prefix holds part of the multiset of the whole. */
  lemma PrefixMultiset<T>(o: seq<T>, n: nat)
    requires n <= |o|
    ensures multiset(o[..n]) <= multiset(o)
  {
    assert o == o[..n] + o[n..];
  }

  /** The candidates are drawn from the input. */
  lemma CandidatesFromInput(items: seq<MenuItem>, m: Mode, p: Preference)
    ensures multiset(Candidates(items, m, p)) <= multiset(items)
  {
  }

  /** `selectMenuItems`. */
  function SelectMenuItems(items: seq<MenuItem>, m: Mode, p: Preference): (r: seq<MenuItem>)
    ensures forall i :: 0 <= i < |r| ==> r[i].mode == m && Admitted(r[i], p.blocklists)
    ensures multiset(r) <= multiset(items)
    ensures Sorted(p.ordering, r)
  {
    var filtered := Candidates(items, m, p);
    var n := SliceEnd(|filtered|, CapFor(p.caps, m));
    OrderedPrefixSound(items, m, p, n);
    OrderItems(p.ordering, filtered)[..n]
  }

  /** The selection is cut from the ordered candidates at the slice end of the mode's cap. */
  lemma SelectIsCappedPrefix(items: seq<MenuItem>, m: Mode, p: Preference)
    ensures var f := Candidates(items, m, p);
            var r := SelectMenuItems(items, m, p);
            var cap := CapFor(p.caps, m);
            && r <= OrderItems(p.ordering, f)
            && (0 <= cap ==> |r| <= cap && (|r| == cap || |r| == |f|))
            && (cap < 0 ==> |r| == if |f| + cap < 0 then 0 else |f| + cap)
  {
  }

  /** Under duration ordering ranks never decrease; under recent ordering `updatedAt` never increases. */
  lemma SelectOrder(items: seq<MenuItem>, m: Mode, p: Preference)
    ensures var r := SelectMenuItems(items, m, p);
            && (p.ordering == ByDuration ==>
                  forall i, j :: 0 <= i < j < |r| ==> Rank(r[i].durationBucket) <= Rank(r[j].durationBucket))
            && (p.ordering == ByRecent ==>
                  forall i, j :: 0 <= i < j < |r| ==> r[i].updatedAt >= r[j].updatedAt)
  {
    var r := SelectMenuItems(items, m, p);
    assert Sorted(p.ordering, r);
    if p.ordering == ByRecent {
      forall i, j | 0 <= i < j < |r|
        ensures r[i].updatedAt >= r[j].updatedAt
      {
        assert Key(ByRecent, r[i]) <= Key(ByRecent, r[j]);
      }
    }
  }

  /**
   The selection is stable: among the items sharing a sort key, it holds
   the first ones of the candidates, in their input order.
   */
  lemma SelectStable(items: seq<MenuItem>, m: Mode, p: Preference, k: int)
    ensures WithKey(p.ordering, k, SelectMenuItems(items, m, p))
            <= WithKey(p.ordering, k, Candidates(items, m, p))
  {
    var f := Candidates(items, m, p);
    var o := OrderItems(p.ordering, f);
    var n := SliceEnd(|f|, CapFor(p.caps, m));
    OrderItemsStable(p.ordering, f);
    FilterPrefix(KeyIs(p.ordering, k), o, n);
  }

  /** What the cap cuts off has keys no smaller than anything kept. */
  lemma SelectTakesSmallestKeys(items: seq<MenuItem>, m: Mode, p: Preference, x: MenuItem, y: MenuItem)
    requires x in SelectMenuItems(items, m, p)
    requires y in multiset(Candidates(items, m, p)) - multiset(SelectMenuItems(items, m, p))
    ensures Key(p.ordering, x) <= Key(p.ordering, y)
  {
    var f := Candidates(items, m, p);
    var o := OrderItems(p.ordering, f);
    var n := SliceEnd(|f|, CapFor(p.caps, m));
    assert SelectMenuItems(items, m, p) == o[..n];
    CutOffPart(o, n, y);
    SortedSplit(p.ordering, o, n, x, y);
  }

  /** What a prefix leaves out of a sequence lies in the rest of it. */
  lemma CutOffPart(o: seq<MenuItem>, n: nat, y: MenuItem)
    requires n <= |o|
    requires y in multiset(o) - multiset(o[..n])
    ensures y in multiset(o[n..])
  {
    assert o == o[..n] + o[n..];
  }

  /** An admitted input item of the requested mode is a candidate. */
  lemma CandidateMember(items: seq<MenuItem>, m: Mode, p: Preference, i: nat)
    requires i < |items| && items[i].mode == m && Admitted(items[i], p.blocklists)
    ensures items[i] in Candidates(items, m, p)
  {
    var g := OfMode(items, m);
    assert items[i] in g;
    var j :| 0 <= j < |g| && g[j] == items[i];
  }

  /** With a cap that covers every candidate, the selection is exactly the candidates, reordered. */
  lemma SelectComplete(items: seq<MenuItem>, m: Mode, p: Preference)
    requires CapFor(p.caps, m) >= |Candidates(items, m, p)|
    ensures multiset(SelectMenuItems(items, m, p)) == multiset(Candidates(items, m, p))
    ensures forall i :: 0 <= i < |items| && items[i].mode == m && Admitted(items[i], p.blocklists)
                        ==> items[i] in SelectMenuItems(items, m, p)
  {
    var f := Candidates(items, m, p);
    var o := OrderItems(p.ordering, f);
    assert SelectMenuItems(items, m, p) == o[..|o|] == o;
    forall i | 0 <= i < |items| && items[i].mode == m && Admitted(items[i], p.blocklists)
      ensures items[i] in o
    {
      CandidateMember(items, m, p, i);
      assert items[i] in multiset(f);
    }
  }

  /** The empty keyword is contained in every text, so it blocks every item. */
  lemma EmptyKeywordBlocksAll(items: seq<MenuItem>, m: Mode, p: Preference)
    requires "" in p.blocklists.keywords
    ensures SelectMenuItems(items, m, p) == []
  {
    forall x: MenuItem
      ensures KeywordBlocked(x, p.blocklists)
    {
      var j :| 0 <= j < |p.blocklists.keywords| && p.blocklists.keywords[j] == "";
      ContainsEmpty(SearchText(x));
      assert Lower(p.blocklists.keywords[j]) == "";
    }
  }

  /**
   When every item of the mode is admitted, already in order and within the
   cap, the selection is the mode's items, unchanged.
   */
  lemma SelectUnfiltered(items: seq<MenuItem>, m: Mode, p: Preference)
    requires forall i :: 0 <= i < |OfMode(items, m)| ==> Admitted(OfMode(items, m)[i], p.blocklists)
    requires Sorted(p.ordering, OfMode(items, m))
    requires CapFor(p.caps, m) >= |OfMode(items, m)|
    ensures SelectMenuItems(items, m, p) == OfMode(items, m)
  {
    var g := OfMode(items, m);
    FilterAll(IsAdmitted(p.blocklists), g);
    OrderItemsSorted(p.ordering, g);
    assert g[..|g|] == g;
  }

  function IsEnabled(): MenuItem -> bool {
    (x: MenuItem) => x.enabled
  }

  /** With both blocklists empty, only the disabled items are dropped. */
  lemma EmptyBlocklistsKeepEnabled(items: seq<MenuItem>, p: Preference)
    requires p.blocklists.tags == [] && p.blocklists.keywords == []
    ensures ApplyBlocklists(items, p) == Filter(IsEnabled(), items)
  {
    FilterSameTest(IsAdmitted(p.blocklists), IsEnabled(), items);
  }
}

=== FILE: seqs.dfy ===
/**
 Sequence operations that stand for the JavaScript array methods the
 source uses: `filter`, `indexOf`, `includes`.
 */
module Seqs {

  /** `Array.prototype.filter`: the elements satisfying `p`, in their order. */
  function Filter<T>(p: T -> bool, s: seq<T>): (r: seq<T>)
    ensures |r| <= |s|
    ensures forall i :: 0 <= i < |r| ==> p(r[i])
  {
    if |s| == 0 then []
    else if p(s[0]) then [s[0]] + Filter(p, s[1..])
    else Filter(p, s[1..])
  }

  /** Filtering only drops elements. */
  lemma {:induction false} FilterMultiset<T>(p: T -> bool, s: seq<T>)
    ensures multiset(Filter(p, s)) <= multiset(s)
  {
    if |s| > 0 {
      assert s == [s[0]] + s[1..];
      FilterMultiset(p, s[1..]);
    }
  }

  /** Filtering keeps every copy of a passing value and no copy of a failing one. */
  lemma {:induction false} FilterCount<T>(p: T -> bool, s: seq<T>, x: T)
    ensures multiset(Filter(p, s))[x] == if p(x) then multiset(s)[x] else 0
  {
    if |s| > 0 {
      assert s == [s[0]] + s[1..];
      FilterCount(p, s[1..], x);
    }
  }

  /** Filtering keeps every element that passes the test. */
  lemma {:induction false} FilterKeeps<T>(p: T -> bool, s: seq<T>, i: nat)
    requires i < |s| && p(s[i])
    ensures s[i] in Filter(p, s)
  {
    if i > 0 {
      FilterKeeps(p, s[1..], i - 1);
    }
  }

  /** Filtering a sequence whose positions `lo..hi` are exactly the passing ones yields that block. */
  lemma FilterBlock<T>(p: T -> bool, s: seq<T>, lo: nat, hi: nat)
    requires lo <= hi <= |s|
    requires forall i :: 0 <= i < lo ==> !p(s[i])
    requires forall i :: lo <= i < hi ==> p(s[i])
    requires forall i :: hi <= i < |s| ==> !p(s[i])
    ensures Filter(p, s) == s[lo..hi]
  {
    var t := s[lo..];
    FilterSkipFront(p, s, lo);
    forall i | 0 <= i < |t|
      ensures p(t[i]) <==> i < hi - lo
    {
      assert t[i] == s[lo + i];
    }
    FilterPassingPrefix(p, t, hi - lo);
    assert t[..hi - lo] == s[lo..hi];
  }

  /** Filtering a sequence whose first `m` elements are exactly the passing ones yields those. */
  lemma FilterPassingPrefix<T>(p: T -> bool, t: seq<T>, m: nat)
    requires m <= |t|
    requires forall i :: 0 <= i < |t| ==> (p(t[i]) <==> i < m)
    ensures Filter(p, t) == t[..m]
  {
    var u := t[m..];
    FilterTakeFront(p, t, m);
    forall i | 0 <= i < |u|
      ensures !p(u[i])
    {
      assert u[i] == t[m + i];
    }
    FilterNone(p, u);
  }

  /** Leading elements that fail the test do not contribute. */
  lemma {:induction false} FilterSkipFront<T>(p: T -> bool, s: seq<T>, n: nat)
    requires n <= |s|
    requires forall i :: 0 <= i < n ==> !p(s[i])
    ensures Filter(p, s) == Filter(p, s[n..])
  {
    if n > 0 {
      FilterSkipFront(p, s[1..], n - 1);
      assert s[1..][n - 1..] == s[n..];
    }
  }

  /** Leading elements that pass the test are kept as they are. */
  lemma {:induction false} FilterTakeFront<T>(p: T -> bool, s: seq<T>, n: nat)
    requires n <= |s|
    requires forall i :: 0 <= i < n ==> p(s[i])
    ensures Filter(p, s) == s[..n] + Filter(p, s[n..])
  {
    if n > 0 {
      FilterTakeFront(p, s[1..], n - 1);
      assert s[1..][n - 1..] == s[n..];
      assert [s[0]] + s[1..][..n - 1] == s[..n];
    }
  }

  /** Filtering one element in front of a sequence. */
  lemma FilterCons<T>(p: T -> bool, a: T, t: seq<T>)
    ensures Filter(p, [a] + t) == (if p(a) then [a] else []) + Filter(p, t)
  {
    assert ([a] + t)[0] == a && ([a] + t)[1..] == t;
  }

  /** Filtering distributes over concatenation: the kept elements keep their relative order. */
  lemma {:induction false} FilterConcat<T>(p: T -> bool, a: seq<T>, b: seq<T>)
    ensures Filter(p, a + b) == Filter(p, a) + Filter(p, b)
  {
    if |a| == 0 {
      assert a + b == b;
    } else {
      assert (a + b)[0] == a[0];
      assert (a + b)[1..] == a[1..] + b;
      FilterConcat(p, a[1..], b);
    }
  }

  /** Filtering a prefix yields a prefix of the filtered sequence. */
  lemma FilterPrefix<T>(p: T -> bool, s: seq<T>, n: nat)
    requires n <= |s|
    ensures Filter(p, s[..n]) <= Filter(p, s)
  {
    assert s == s[..n] + s[n..];
    FilterConcat(p, s[..n], s[n..]);
  }

  /** Two tests that agree on the elements filter alike. */
  lemma {:induction false} FilterSameTest<T>(p: T -> bool, q: T -> bool, s: seq<T>)
    requires forall i :: 0 <= i < |s| ==> p(s[i]) == q(s[i])
    ensures Filter(p, s) == Filter(q, s)
  {
    if |s| > 0 {
      FilterSameTest(p, q, s[1..]);
    }
  }

  /** A filter that keeps every element is the identity. */
  lemma {:induction false} FilterAll<T>(p: T -> bool, s: seq<T>)
    requires forall i :: 0 <= i < |s| ==> p(s[i])
    ensures Filter(p, s) == s
  {
    if |s| > 0 {
      FilterAll(p, s[1..]);
    }
  }

  /** A filter that keeps no element yields the empty sequence. */
  lemma {:induction false} FilterNone<T>(p: T -> bool, s: seq<T>)
    requires forall i :: 0 <= i < |s| ==> !p(s[i])
    ensures Filter(p, s) == []
  {
    if |s| > 0 {
      FilterNone(p, s[1..]);
    }
  }

  /** `Array.prototype.indexOf`: the first index holding `x`, or -1. */
  function IndexOf<T(==)>(s: seq<T>, x: T): (i: int)
    ensures -1 <= i < |s|
    ensures i == -1 <==> x !in s
    ensures 0 <= i ==> s[i] == x && x !in s[..i]
  {
    if |s| == 0 then -1
    else if s[0] == x then 0
    else
      var j := IndexOf(s[1..], x);
      assert j >= 0 ==> s[..j + 1] == [s[0]] + s[1..][..j];
      if j == -1 then -1 else j + 1
  }

  /** A position holding `x` with no earlier copy is the index `IndexOf` finds. */
  lemma IndexOfFirst<T>(s: seq<T>, x: T, i: nat)
    requires i < |s| && s[i] == x && x !in s[..i]
    ensures IndexOf(s, x) == i
  {
  }

  /** No element occurs twice. */
  predicate Distinct<T(==)>(s: seq<T>) {
    forall i, j :: 0 <= i < j < |s| ==> s[i] != s[j]
  }
}

=== FILE: sorting.dfy ===
/**
 The two orderings of `orderItems`, as one stable insertion sort on an
 integer key. `Array.prototype.sort` is stable, so the source's comparator
 `order[a] - order[b]` sorts ascending by duration rank and keeps the input
 order among equal ranks; the comparator `time(b) - time(a)` sorts descending
 by `updatedAt`, which is ascending by the key `-updatedAt`.
 */
module StableSort {
  import opened Types
  import opened Seqs

  /** The sort key of an item under an ordering; smaller keys come first. */
  function Key(o: Ordering, x: MenuItem): int {
    match o
    case ByDuration => Rank(x.durationBucket)
    case ByRecent => -x.updatedAt
  }

  /** Keys never decrease along `s`. */
  predicate Sorted(o: Ordering, s: seq<MenuItem>) {
    forall i, j :: 0 <= i < j < |s| ==> Key(o, s[i]) <= Key(o, s[j])
  }

  /** The test "has key `k`". */
  function KeyIs(o: Ordering, k: int): MenuItem -> bool {
    (x: MenuItem) => Key(o, x) == k
  }

  /** The items of `s` whose key is `k`, in the order of `s`. */
  function WithKey(o: Ordering, k: int, s: seq<MenuItem>): seq<MenuItem> {
    Filter(KeyIs(o, k), s)
  }

  /** `b` is a stable rearrangement of `a`: for every key, the items with that key appear in the same order. */
  ghost predicate StableOf(o: Ordering, a: seq<MenuItem>, b: seq<MenuItem>) {
    forall k :: WithKey(o, k, b) == WithKey(o, k, a)
  }

  /** Inserts `x` in front of the first item whose key is not smaller. */
  function Insert(o: Ordering, x: MenuItem, s: seq<MenuItem>): (r: seq<MenuItem>)
    ensures multiset(r) == multiset(s) + multiset{x}
    ensures |r| == |s| + 1
  {
    if |s| == 0 || Key(o, x) <= Key(o, s[0]) then [x] + s
    else
      assert s == [s[0]] + s[1..];
      [s[0]] + Insert(o, x, s[1..])
  }

  /** Insertion keeps a sorted sequence sorted. */
  lemma {:induction false} InsertSorted(o: Ordering, x: MenuItem, s: seq<MenuItem>)
    requires Sorted(o, s)
    ensures Sorted(o, Insert(o, x, s))
  {
    if |s| == 0 || Key(o, x) <= Key(o, s[0]) {
      SortedCons(o, x, s);
    } else {
      var t := s[1..];
      InsertSorted(o, x, t);
      InsertBounded(o, x, t, Key(o, s[0]));
      SortedCons(o, s[0], Insert(o, x, t));
    }
  }

  /** A lower bound of `x` and of every key of `s` bounds every key after insertion. */
  lemma {:induction false} InsertBounded(o: Ordering, x: MenuItem, s: seq<MenuItem>, b: int)
    requires b <= Key(o, x)
    requires forall i :: 0 <= i < |s| ==> b <= Key(o, s[i])
    ensures forall i :: 0 <= i < |s| + 1 ==> b <= Key(o, Insert(o, x, s)[i])
  {
    if |s| > 0 && Key(o, x) > Key(o, s[0]) {
      InsertBounded(o, x, s[1..], b);
    }
  }

  /** A head whose key bounds a sorted tail from below keeps it sorted. */
  lemma SortedCons(o: Ordering, h: MenuItem, s: seq<MenuItem>)
    requires Sorted(o, s)
    requires forall i :: 0 <= i < |s| ==> Key(o, h) <= Key(o, s[i])
    ensures Sorted(o, [h] + s)
  {
    var r := [h] + s;
    forall i, j | 0 <= i < j < |r|
      ensures Key(o, r[i]) <= Key(o, r[j])
    {
      assert r[j] == s[j - 1];
      if i > 0 {
        assert r[i] == s[i - 1];
      }
    }
  }

  /** Insertion adds `x` to the group of its own key, in front of the earlier members. */
  lemma {:induction false} InsertStable(o: Ordering, k: int, x: MenuItem, s: seq<MenuItem>)
    requires Sorted(o, s)
    ensures WithKey(o, k, Insert(o, x, s))
            == (if Key(o, x) == k then [x] else []) + WithKey(o, k, s)
  {
    if |s| == 0 || Key(o, x) <= Key(o, s[0]) {
      FilterCons(KeyIs(o, k), x, s);
    } else {
      var t := s[1..];
      assert s == [s[0]] + t;
      InsertStable(o, k, x, t);
      InsertBehindHead(o, k, x, s[0], t);
    }
  }

  /** The step of `InsertStable` where `x` goes behind the head `h`, whose key is smaller. */
  lemma InsertBehindHead(o: Ordering, k: int, x: MenuItem, h: MenuItem, t: seq<MenuItem>)
    requires Key(o, h) < Key(o, x)
    requires WithKey(o, k, Insert(o, x, t)) == (if Key(o, x) == k then [x] else []) + WithKey(o, k, t)
    ensures WithKey(o, k, [h] + Insert(o, x, t))
            == (if Key(o, x) == k then [x] else []) + WithKey(o, k, [h] + t)
  {
    FilterCons(KeyIs(o, k), h, Insert(o, x, t));
    FilterCons(KeyIs(o, k), h, t);
  }

  /**
   `orderItems`: a stable insertion sort by `Key`. Its result is sorted, a
   permutation of the input, and keeps the input order among equal keys.
   */
  function OrderItems(o: Ordering, s: seq<MenuItem>): (r: seq<MenuItem>)
    ensures multiset(r) == multiset(s)
    ensures |r| == |s|
    ensures Sorted(o, r)
  {
    if |s| == 0 then []
    else
      assert s == [s[0]] + s[1..];
      var rest := OrderItems(o, s[1..]);
      InsertSorted(o, s[0], rest);
      Insert(o, s[0], rest)
  }

  /** Sorting an already sorted sequence changes nothing. */
  lemma {:induction false} OrderItemsSorted(o: Ordering, s: seq<MenuItem>)
    requires Sorted(o, s)
    ensures OrderItems(o, s) == s
  {
    if |s| > 0 {
      OrderItemsSorted(o, s[1..]);
      assert [s[0]] + s[1..] == s;
    }
  }

  /** The sort is stable. */
  lemma {:induction false} OrderItemsStable(o: Ordering, s: seq<MenuItem>)
    ensures StableOf(o, s, OrderItems(o, s))
  {
    if |s| > 0 {
      var t := s[1..];
      assert s == [s[0]] + t;
      OrderItemsStable(o, t);
      forall k
        ensures WithKey(o, k, OrderItems(o, s)) == WithKey(o, k, s)
      {
        InsertStable(o, k, s[0], OrderItems(o, t));
        FilterCons(KeyIs(o, k), s[0], t);
      }
    }
  }

  /** A sorted sequence has the keys of its multiset in order: anything in a later part has a key no smaller. */
  lemma SortedSplit(o: Ordering, s: seq<MenuItem>, n: nat, x: MenuItem, y: MenuItem)
    requires Sorted(o, s) && n <= |s|
    requires x in s[..n] && y in multiset(s[n..])
    ensures Key(o, x) <= Key(o, y)
  {
    var i :| 0 <= i < n && s[i] == x;
    assert y in s[n..];
    var j :| 0 <= j < |s| - n && s[n..][j] == y;
    assert s[n + j] == y;
  }
}

=== FILE: store.dfy ===
/**
 The snapshot reducers of the app context, shared in substance by the
 mobile and the web client: each action builds the next snapshot from the
 current one and hands it to `persist`. Persisting and React state are left
 out; an action is the pure step from one snapshot to the next.
 */
module Store {
  import opened Types
  import opened Seqs

  /** The item identifiers, in list order. */
  function Ids(items: seq<MenuItem>): (r: seq<string>)
    ensures |r| == |items|
    ensures forall i :: 0 <= i < |items| ==> r[i] == items[i].id
  {
    if |items| == 0 then [] else [items[0].id] + Ids(items[1..])
  }

  /** Two snapshots agree on everything but the item list. */
  predicate SameButItems(a: Snapshot, b: Snapshot) {
    a.rules == b.rules && a.sessions == b.sessions && a.preferences == b.preferences
  }

  /** `addItem`: the new item goes to the front of the list. */
  function AddItem(s: Snapshot, item: MenuItem): (r: Snapshot)
    ensures |r.items| == |s.items| + 1 && r.items[0] == item && r.items[1..] == s.items
    ensures SameButItems(r, s)
  {
    s.(items := [item] + s.items)
  }

  /** `items.map(existing => existing.id === item.id ? item : existing)`. */
  function ReplaceById(items: seq<MenuItem>, item: MenuItem): (r: seq<MenuItem>)
    ensures |r| == |items|
    ensures forall i :: 0 <= i < |items| ==> r[i] == if items[i].id == item.id then item else items[i]
  {
    if |items| == 0 then []
    else [if items[0].id == item.id then item else items[0]] + ReplaceById(items[1..], item)
  }

  /** `updateItem`: every item with the same id is replaced, everything else is kept in place. */
  function UpdateItem(s: Snapshot, item: MenuItem): (r: Snapshot)
    ensures |r.items| == |s.items|
    ensures SameButItems(r, s)
  {
    s.(items := ReplaceById(s.items, item))
  }

  /** Updating an id that is not in the list leaves the snapshot as it is. */
  lemma UpdateAbsentIsNoop(s: Snapshot, item: MenuItem)
    requires item.id !in Ids(s.items)
    ensures UpdateItem(s, item) == s
  {
    var r := UpdateItem(s, item).items;
    forall i | 0 <= i < |s.items|
      ensures r[i] == s.items[i]
    {
      assert Ids(s.items)[i] == s.items[i].id;
    }
  }

  /** Updating keeps the ids, in order: an update never adds or removes an item. */
  lemma UpdateKeepsIds(s: Snapshot, item: MenuItem)
    ensures Ids(UpdateItem(s, item).items) == Ids(s.items)
  {
  }

  /** After an update the item is present exactly where its id was, and nowhere else changed. */
  lemma UpdatePlacesItem(s: Snapshot, item: MenuItem, i: nat)
    requires i < |s.items|
    ensures UpdateItem(s, item).items[i] == item <==> (s.items[i].id == item.id || s.items[i] == item)
  {
  }

  /** Updating twice with the same item is the same as updating once. */
  lemma UpdateIdempotent(s: Snapshot, item: MenuItem)
    ensures UpdateItem(UpdateItem(s, item), item) == UpdateItem(s, item)
  {
  }

  /** The test `item.id !== id`. */
  function IdIsNot(id: string): MenuItem -> bool {
    (x: MenuItem) => x.id != id
  }

  /** `deleteItem`: every item with the id is dropped. */
  function DeleteItem(s: Snapshot, id: string): (r: Snapshot)
    ensures |r.items| <= |s.items|
    ensures forall i :: 0 <= i < |r.items| ==> r.items[i].id != id
    ensures SameButItems(r, s)
  {
    s.(items := Filter(IdIsNot(id), s.items))
  }

  /** Deleting keeps every copy of every item with another id, and invents none. */
  lemma DeleteKeepsOthers(s: Snapshot, id: string)
    ensures forall i :: 0 <= i < |s.items| && s.items[i].id != id ==> s.items[i] in DeleteItem(s, id).items
    ensures multiset(DeleteItem(s, id).items) <= multiset(s.items)
    ensures forall x :: multiset(DeleteItem(s, id).items)[x] == if x.id != id then multiset(s.items)[x] else 0
  {
    forall x
      ensures multiset(DeleteItem(s, id).items)[x] == if x.id != id then multiset(s.items)[x] else 0
    {
      FilterCount(IdIsNot(id), s.items, x);
    }
    forall i | 0 <= i < |s.items| && s.items[i].id != id
      ensures s.items[i] in DeleteItem(s, id).items
    {
      FilterKeeps(IdIsNot(id), s.items, i);
    }
    FilterMultiset(IdIsNot(id), s.items);
  }

  /** Deleting works part by part: the kept items of a list split in two keep their relative order. */
  lemma DeleteKeepsOrder(s: Snapshot, id: string, a: seq<MenuItem>, b: seq<MenuItem>)
    requires s.items == a + b
    ensures DeleteItem(s, id).items == DeleteItem(s.(items := a), id).items + DeleteItem(s.(items := b), id).items
  {
    FilterConcat(IdIsNot(id), a, b);
  }

  /** Deleting an id that is not in the list leaves the snapshot as it is. */
  lemma DeleteAbsentIsNoop(s: Snapshot, id: string)
    requires id !in Ids(s.items)
    ensures DeleteItem(s, id) == s
  {
    forall i | 0 <= i < |s.items|
      ensures IdIsNot(id)(s.items[i])
    {
      assert Ids(s.items)[i] == s.items[i].id;
    }
    FilterAll(IdIsNot(id), s.items);
  }

  /** Deleting twice is deleting once. */
  lemma DeleteIdempotent(s: Snapshot, id: string)
    ensures DeleteItem(DeleteItem(s, id), id) == DeleteItem(s, id)
  {
    FilterAll(IdIsNot(id), DeleteItem(s, id).items);
  }

  /** Adding an item with a fresh id and then deleting that id gives back the original snapshot. */
  lemma AddThenDelete(s: Snapshot, item: MenuItem)
    requires item.id !in Ids(s.items)
    ensures DeleteItem(AddItem(s, item), item.id) == s
  {
    FilterCons(IdIsNot(item.id), item, s.items);
    DeleteAbsentIsNoop(s, item.id);
  }

  /** Adding an item and then updating it in place is adding the updated item, when the id was fresh. */
  lemma AddThenUpdate(s: Snapshot, item: MenuItem, edited: MenuItem)
    requires item.id !in Ids(s.items) && edited.id == item.id
    ensures UpdateItem(AddItem(s, item), edited) == AddItem(s, edited)
  {
    UpdateAbsentIsNoop(s, edited);
    assert ReplaceById([item] + s.items, edited) == [edited] + ReplaceById(s.items, edited);
  }

  /** `addSession`: the new session goes to the front of the session list. */
  function AddSession(s: Snapshot, session: Session): (r: Snapshot)
    ensures |r.sessions| == |s.sessions| + 1 && r.sessions[0] == session && r.sessions[1..] == s.sessions
    ensures r.items == s.items && r.rules == s.rules && r.preferences == s.preferences
  {
    s.(sessions := [session] + s.sessions)
  }

  /** `updatePreferences`: the preference record is replaced as a whole. */
  function UpdatePreferences(s: Snapshot, p: Preference): (r: Snapshot)
    ensures r.preferences == p
    ensures r.items == s.items && r.rules == s.rules && r.sessions == s.sessions
  {
    s.(preferences := p)
  }

  /** The last preference update wins. */
  lemma UpdatePreferencesLastWins(s: Snapshot, p: Preference, q: Preference)
    ensures UpdatePreferences(UpdatePreferences(s, p), q) == UpdatePreferences(s, q)
  {
  }

  /**
   The object spread `{ ...snapshot, ...next }`: a field present in `next`
   overrides, an absent one keeps the current value.
   */
  datatype SnapshotPatch = SnapshotPatch(
    items: Option<seq<MenuItem>>,
    rules: Option<seq<Rule>>,
    sessions: Option<seq<Session>>,
    preferences: Option<Preference>
  )

  function Override<T>(current: T, next: Option<T>): T {
    if next.Some? then next.value else current
  }

  /** `applySnapshot`. */
  function ApplySnapshot(s: Snapshot, next: SnapshotPatch): (r: Snapshot)
    ensures next.items.Some? ==> r.items == next.items.value
    ensures next.items.None? ==> r.items == s.items
    ensures next.rules.Some? ==> r.rules == next.rules.value
    ensures next.rules.None? ==> r.rules == s.rules
    ensures next.sessions.Some? ==> r.sessions == next.sessions.value
    ensures next.sessions.None? ==> r.sessions == s.sessions
    ensures next.preferences.Some? ==> r.preferences == next.preferences.value
    ensures next.preferences.None? ==> r.preferences == s.preferences
  {
    Snapshot(Override(s.items, next.items), Override(s.rules, next.rules),
             Override(s.sessions, next.sessions), Override(s.preferences, next.preferences))
  }

  /** A full snapshot as a patch: every field present. */
  function AsPatch(t: Snapshot): SnapshotPatch {
    SnapshotPatch(Some(t.items), Some(t.rules), Some(t.sessions), Some(t.preferences))
  }

  /** Spreading a complete snapshot replaces the current one: `replaceSnapshot` on the web is the mobile's plain replacement. */
  lemma ApplyCompleteReplaces(s: Snapshot, t: Snapshot)
    ensures ApplySnapshot(s, AsPatch(t)) == t
  {
  }

  /** Spreading an empty object changes nothing. */
  lemma ApplyEmptyIsIdentity(s: Snapshot)
    ensures ApplySnapshot(s, SnapshotPatch(None, None, None, None)) == s
  {
  }

  /** Spreading `p` and then `q` is spreading their merge, where `q`'s fields win. */
  function Merge(p: SnapshotPatch, q: SnapshotPatch): SnapshotPatch {
    SnapshotPatch(if q.items.Some? then q.items else p.items,
                  if q.rules.Some? then q.rules else p.rules,
                  if q.sessions.Some? then q.sessions else p.sessions,
                  if q.preferences.Some? then q.preferences else p.preferences)
  }

  lemma ApplyCompose(s: Snapshot, p: SnapshotPatch, q: SnapshotPatch)
    ensures ApplySnapshot(ApplySnapshot(s, p), q) == ApplySnapshot(s, Merge(p, q))
  {
  }

  /** Applying the same patch twice is applying it once. */
  lemma ApplyIdempotent(s: Snapshot, p: SnapshotPatch)
    ensures ApplySnapshot(ApplySnapshot(s, p), p) == ApplySnapshot(s, p)
  {
  }

  /** The mobile client's category list and snapshot, changed together by `deleteCategory`. */
  datatype CategoryState = CategoryState(categories: seq<string>, snapshot: Snapshot)

  /** The test `cat !== categoryName`. */
  function IsNot(name: string): string -> bool {
    (c: string) => c != name
  }

  /** `items.map(item => item.category === categoryName ? { ...item, category: null } : item)`. */
  function ClearCategory(items: seq<MenuItem>, name: string): (r: seq<MenuItem>)
    ensures |r| == |items|
    ensures forall i :: 0 <= i < |items| ==>
              r[i] == if items[i].category == Some(name) then items[i].(category := None) else items[i]
  {
    if |items| == 0 then []
    else [if items[0].category == Some(name) then items[0].(category := None) else items[0]]
         + ClearCategory(items[1..], name)
  }

  /** `deleteCategory`: the name leaves the list, and items filed under it become uncategorised. */
  function DeleteCategory(st: CategoryState, name: string): (r: CategoryState)
    ensures name !in r.categories
    ensures forall i :: 0 <= i < |r.snapshot.items| ==> r.snapshot.items[i].category != Some(name)
    ensures |r.snapshot.items| == |st.snapshot.items| && SameButItems(r.snapshot, st.snapshot)
  {
    var cats := Filter(IsNot(name), st.categories);
    assert forall i :: 0 <= i < |cats| ==> cats[i] != name;
    CategoryState(cats, st.snapshot.(items := ClearCategory(st.snapshot.items, name)))
  }

  /** Deleting a category keeps every other category as often as it was listed, and changes no item except for its category. */
  lemma DeleteCategoryKeepsRest(st: CategoryState, name: string)
    ensures forall i :: 0 <= i < |st.categories| && st.categories[i] != name ==>
              st.categories[i] in DeleteCategory(st, name).categories
    ensures forall c :: multiset(DeleteCategory(st, name).categories)[c] == if c == name then 0 else multiset(st.categories)[c]
    ensures forall i :: 0 <= i < |st.snapshot.items| ==>
              DeleteCategory(st, name).snapshot.items[i].(category := None) == st.snapshot.items[i].(category := None)
    ensures forall i :: 0 <= i < |st.snapshot.items| && st.snapshot.items[i].category != Some(name) ==>
              DeleteCategory(st, name).snapshot.items[i] == st.snapshot.items[i]
  {
    forall c
      ensures multiset(DeleteCategory(st, name).categories)[c] == if c == name then 0 else multiset(st.categories)[c]
    {
      FilterCount(IsNot(name), st.categories, c);
    }
    forall i | 0 <= i < |st.categories| && st.categories[i] != name
      ensures st.categories[i] in DeleteCategory(st, name).categories
    {
      FilterKeeps(IsNot(name), st.categories, i);
    }
  }

  /** Deleting a category works part by part: the categories kept from a list split in two keep their relative order. */
  lemma DeleteCategoryKeepsOrder(st: CategoryState, name: string, a: seq<string>, b: seq<string>)
    requires st.categories == a + b
    ensures DeleteCategory(st, name).categories
            == DeleteCategory(st.(categories := a), name).categories + DeleteCategory(st.(categories := b), name).categories
  {
    FilterConcat(IsNot(name), a, b);
  }

  /** Deleting a category twice is deleting it once. */
  lemma DeleteCategoryIdempotent(st: CategoryState, name: string)
    ensures DeleteCategory(DeleteCategory(st, name), name) == DeleteCategory(st, name)
  {
    var r := DeleteCategory(st, name);
    FilterAll(IsNot(name), r.categories);
  }
}

=== FILE: text.dfy ===
/**
 The string operations the source relies on: `toLowerCase` (restricted to
 ASCII letters), `includes`, `trim`, `split(",")` and `join(", ")`.
 */
module Text {

  /**
   The code points `String.prototype.trim` strips: the ECMAScript
   WhiteSpace and LineTerminator productions.
   */
  predicate IsSpace(c: char) {
    || c == '\t' || c == '\n' || c == '\U{B}' || c == '\U{C}' || c == '\r'
    || c == ' ' || c == '\U{A0}' || c == '\U{1680}'
    || ('\U{2000}' <= c <= '\U{200A}')
    || c == '\U{2028}' || c == '\U{2029}' || c == '\U{202F}' || c == '\U{205F}'
    || c == '\U{3000}' || c == '\U{FEFF}'
  }

  /** Lower-cases one character; only ASCII letters change. */
  function LowerChar(c: char): (d: char)
    ensures 'A' <= c <= 'Z' ==> 'a' <= d <= 'z'
    ensures !('A' <= c <= 'Z') ==> d == c
  {
    if 'A' <= c <= 'Z' then (c as int + 32) as char else c
  }

  /** `toLowerCase` on ASCII text. */
  function Lower(s: string): (r: string)
    ensures |r| == |s|
    ensures forall i :: 0 <= i < |s| ==> r[i] == LowerChar(s[i])
  {
    if |s| == 0 then "" else [LowerChar(s[0])] + Lower(s[1..])
  }

  /** `pat` occurs in `text` starting at index `i`. */
  predicate OccursAt(text: string, pat: string, i: nat) {
    i + |pat| <= |text| && text[i..i + |pat|] == pat
  }

  /** `String.prototype.includes`, searched left to right. */
  function Contains(text: string, pat: string): (b: bool)
    ensures b <==> exists i: nat :: OccursAt(text, pat, i)
  {
    if |pat| <= |text| && text[..|pat|] == pat then
      assert OccursAt(text, pat, 0) by {
        assert text[0..|pat|] == text[..|pat|];
      }
      true
    else if |text| == 0 then
      false
    else
      var b := Contains(text[1..], pat);
      ShiftOccurrence(text, pat);
      b
  }

  /** An occurrence at `i > 0` is an occurrence at `i - 1` in the tail. */
  lemma OccursInTail(text: string, pat: string, i: nat)
    requires 0 < i && 0 < |text|
    ensures OccursAt(text, pat, i) <==> OccursAt(text[1..], pat, i - 1)
  {
    if i + |pat| <= |text| {
      assert text[1..][i - 1..i - 1 + |pat|] == text[i..i + |pat|];
    }
  }

  /** Without a match at the front, the occurrences are those of the tail. */
  lemma ShiftOccurrence(text: string, pat: string)
    requires |text| > 0 && !(|pat| <= |text| && text[..|pat|] == pat)
    ensures (exists i: nat :: OccursAt(text, pat, i)) <==> (exists i: nat :: OccursAt(text[1..], pat, i))
  {
    assert !OccursAt(text, pat, 0) by {
      if |pat| <= |text| {
        assert text[0..|pat|] == text[..|pat|];
      }
    }
    if exists i: nat :: OccursAt(text, pat, i) {
      var i: nat :| OccursAt(text, pat, i);
      OccursInTail(text, pat, i);
    }
    if exists i: nat :: OccursAt(text[1..], pat, i) {
      var i: nat :| OccursAt(text[1..], pat, i);
      OccursInTail(text, pat, i + 1);
    }
  }

  /** Every text contains the empty string, as `includes("")` is always true. */
  lemma {:induction false} ContainsEmpty(text: string)
    ensures Contains(text, "")
  {
    assert OccursAt(text, "", 0);
  }

  /** Drops leading whitespace, and nothing else. */
  function TrimStart(s: string): (r: string)
    ensures |r| <= |s| && r == s[|s| - |r|..]
    ensures |r| > 0 ==> !IsSpace(r[0])
    ensures |r| == 0 || |r| == |s| || IsSpace(s[0])
  {
    if |s| > 0 && IsSpace(s[0]) then TrimStart(s[1..]) else s
  }

  /** Everything `TrimStart` drops is whitespace. */
  lemma {:induction false} TrimStartDropsSpace(s: string)
    ensures forall k :: 0 <= k < |s| - |TrimStart(s)| ==> IsSpace(s[k])
  {
    if |s| > 0 && IsSpace(s[0]) {
      TrimStartDropsSpace(s[1..]);
      assert forall k :: 1 <= k < |s| ==> s[k] == s[1..][k - 1];
    }
  }

  /** Drops trailing whitespace, and nothing else. */
  function TrimEnd(s: string): (r: string)
    ensures r <= s
    ensures |r| > 0 ==> !IsSpace(r[|r| - 1])
  {
    if |s| > 0 && IsSpace(s[|s| - 1]) then TrimEnd(s[..|s| - 1]) else s
  }

  /** Everything `TrimEnd` drops is whitespace. */
  lemma {:induction false} TrimEndDropsSpace(s: string)
    ensures forall k :: |TrimEnd(s)| <= k < |s| ==> IsSpace(s[k])
  {
    if |s| > 0 && IsSpace(s[|s| - 1]) {
      TrimEndDropsSpace(s[..|s| - 1]);
    }
  }

  /** Neither starts nor ends with whitespace. */
  predicate IsTrimmed(s: string) {
    |s| == 0 || (!IsSpace(s[0]) && !IsSpace(s[|s| - 1]))
  }

  /** `String.prototype.trim`. */
  function Trim(s: string): (r: string)
    ensures IsTrimmed(r)
    ensures IsTrimmed(s) ==> r == s
  {
    var t := TrimStart(s);
    var r := TrimEnd(t);
    assert |r| > 0 ==> r[0] == t[0];
    r
  }

  /** Trimming removes whitespace at both ends and nothing else: the result is an infix of the input. */
  lemma TrimStripsEnds(s: string)
    ensures exists i, j :: 0 <= i <= j <= |s| && Trim(s) == s[i..j]
                           && (forall k :: 0 <= k < i ==> IsSpace(s[k]))
                           && (forall k :: j <= k < |s| ==> IsSpace(s[k]))
  {
    var t := TrimStart(s);
    var r := TrimEnd(t);
    TrimStartDropsSpace(s);
    TrimEndDropsSpace(t);
    var i := |s| - |t|;
    var j := i + |r|;
    assert r == s[i..j] by {
      assert r == t[..|r|];
    }
    forall k | j <= k < |s|
      ensures IsSpace(s[k])
    {
      assert s[k] == t[k - i];
    }
  }

  /** A text trims to nothing exactly when it is all whitespace. */
  lemma TrimBlank(s: string)
    ensures Trim(s) == "" <==> forall k :: 0 <= k < |s| ==> IsSpace(s[k])
  {
    var t := TrimStart(s);
    TrimStartDropsSpace(s);
    TrimEndDropsSpace(t);
    assert (forall k :: 0 <= k < |s| ==> IsSpace(s[k])) ==> |t| == 0 by {
      if |t| > 0 {
        assert t[0] == s[|s| - |t|];
      }
    }
    assert Trim(s) == "" ==> |t| == 0;
  }

  /** Trim is idempotent. */
  lemma TrimIdempotent(s: string)
    ensures Trim(Trim(s)) == Trim(s)
  {
  }

  /** Leading whitespace never survives a trim. */
  lemma TrimLeadingSpace(c: char, s: string)
    requires IsSpace(c)
    ensures Trim([c] + s) == Trim(s)
  {
    assert ([c] + s)[1..] == s;
  }

  /** Every character of a trimmed string comes from the input. */
  lemma TrimIsInfix(s: string)
    ensures forall c :: c in Trim(s) ==> c in s
  {
    var t := TrimStart(s);
    assert forall c :: c in TrimEnd(t) ==> c in t;
    assert forall c :: c in t ==> c in s;
  }

  /** Number of commas in a text. */
  function CommaCount(s: string): nat {
    if |s| == 0 then 0 else (if s[0] == ',' then 1 else 0) + CommaCount(s[1..])
  }

  /** `String.prototype.split(",")`: the comma-free pieces between commas. */
  function SplitComma(s: string): (r: seq<string>)
    ensures |r| == CommaCount(s) + 1
    ensures forall i :: 0 <= i < |r| ==> ',' !in r[i]
  {
    if |s| == 0 then [""]
    else
      var rest := SplitComma(s[1..]);
      if s[0] == ',' then [""] + rest
      else [[s[0]] + rest[0]] + rest[1..]
  }

  /** A comma-free text splits into itself. */
  lemma {:induction false} SplitNoComma(s: string)
    requires ',' !in s
    ensures SplitComma(s) == [s]
  {
    if |s| > 0 {
      assert ',' !in s[1..];
      SplitNoComma(s[1..]);
      assert [s[0]] + s[1..] == s;
    }
  }

  /** The first comma of `a + "," + b` ends the first piece. */
  lemma {:induction false} SplitAtComma(a: string, b: string)
    requires ',' !in a
    ensures SplitComma(a + [','] + b) == [a] + SplitComma(b)
  {
    if |a| == 0 {
      assert a + [','] + b == [','] + b;
      assert ([','] + b)[1..] == b;
    } else {
      var s := a + [','] + b;
      assert s[0] == a[0];
      assert s[1..] == a[1..] + [','] + b;
      assert ',' !in a[1..];
      SplitAtComma(a[1..], b);
      assert [a[0]] + a[1..] == a;
    }
  }

  /** Commas add up over concatenation. */
  lemma {:induction false} CommaCountConcat(a: string, b: string)
    ensures CommaCount(a + b) == CommaCount(a) + CommaCount(b)
  {
    if |a| > 0 {
      assert (a + b)[0] == a[0];
      assert (a + b)[1..] == a[1..] + b;
      CommaCountConcat(a[1..], b);
    } else {
      assert a + b == b;
    }
  }

  /** A comma-free text counts no commas. */
  lemma {:induction false} CommaCountNone(a: string)
    requires ',' !in a
    ensures CommaCount(a) == 0
  {
    if |a| > 0 {
      assert ',' !in a[1..];
      CommaCountNone(a[1..]);
    }
  }

  /**
   `Array.prototype.join(", ")`: joining comma-free pieces puts exactly one
   comma between neighbours.
   */
  function JoinComma(ts: seq<string>): (r: string)
    ensures |ts| == 0 ==> r == ""
    ensures |ts| > 0 && (forall i :: 0 <= i < |ts| ==> ',' !in ts[i]) ==> CommaCount(r) == |ts| - 1
  {
    if |ts| == 0 then ""
    else if |ts| == 1 then
      (if ',' !in ts[0] then CommaCountNone(ts[0]); ts[0] else ts[0])
    else
      var rest := JoinComma(ts[1..]);
      assert ts[0] + ", " + rest == ts[0] + (", " + rest);
      CommaCountConcat(ts[0], ", " + rest);
      CommaCountConcat(", ", rest);
      assert CommaCount(", ") == 1 by {
        assert ", "[1..] == " " && " "[1..] == "";
      }
      if ',' !in ts[0] then
        CommaCountNone(ts[0]);
        assert forall i :: 0 <= i < |ts| - 1 ==> ts[1..][i] == ts[i + 1];
        ts[0] + ", " + rest
      else ts[0] + ", " + rest
  }

  /** A character other than a comma joins the first piece of the rest. */
  lemma SplitCons(c: char, t: string)
    requires c != ','
    ensures SplitComma([c] + t) == [[c] + SplitComma(t)[0]] + SplitComma(t)[1..]
  {
    assert ([c] + t)[0] == c && ([c] + t)[1..] == t;
  }

  /**
   Splitting a joined list of comma-free pieces at the commas gives the pieces
   back, each after the first carrying the space `join(", ")` put in front of it.
   */
  lemma {:induction false} SplitJoin(ts: seq<string>)
    requires |ts| > 0 && forall i :: 0 <= i < |ts| ==> ',' !in ts[i]
    ensures |SplitComma(JoinComma(ts))| == |ts|
    ensures SplitComma(JoinComma(ts))[0] == ts[0]
    ensures forall i :: 0 < i < |ts| ==> SplitComma(JoinComma(ts))[i] == [' '] + ts[i]
  {
    if |ts| == 1 {
      SplitNoComma(ts[0]);
    } else {
      var tail := ts[1..];
      var rest := JoinComma(tail);
      assert JoinComma(ts) == ts[0] + [','] + ([' '] + rest);
      SplitAtComma(ts[0], [' '] + rest);
      SplitCons(' ', rest);
      assert forall i :: 0 <= i < |tail| ==> ',' !in tail[i] by {
        assert forall i :: 0 <= i < |tail| ==> tail[i] == ts[i + 1];
      }
      SplitJoin(tail);
    }
  }
}

=== FILE: theme.dfy ===
/**
 The mobile theme: the user's mode (light, dark or follow the system), the
 navigation theme it resolves to against the system color scheme, and the
 saved preference. Storage is a value passed in and out.
 */
module Theme {
  import opened Types

  datatype ThemeMode = Light | Dark | System

  /** `useColorScheme()`: "light", "dark", or `null`/`undefined` when unknown. */
  datatype ColorScheme = SchemeLight | SchemeDark | SchemeUnknown

  /** The two navigation themes. */
  datatype NavTheme = DefaultTheme | DarkTheme

  /** The `theme` memo: `system` follows the scheme, anything other than "dark" there reads as light. */
  function ResolveTheme(mode: ThemeMode, scheme: ColorScheme): (t: NavTheme)
    ensures t == DarkTheme <==> mode == Dark || (mode == System && scheme == SchemeDark)
  {
    if mode == System then (if scheme == SchemeDark then DarkTheme else DefaultTheme)
    else if mode == Dark then DarkTheme
    else DefaultTheme
  }

  /** An explicit mode ignores the system scheme; `system` agrees with the explicit mode the scheme names. */
  lemma ResolveCases(scheme: ColorScheme)
    ensures ResolveTheme(Light, scheme) == DefaultTheme
    ensures ResolveTheme(Dark, scheme) == DarkTheme
    ensures scheme == SchemeDark ==> ResolveTheme(System, scheme) == ResolveTheme(Dark, scheme)
    ensures scheme != SchemeDark ==> ResolveTheme(System, scheme) == ResolveTheme(Light, scheme)
  {
  }

  /** The provider's mode and the preference in storage. */
  datatype ThemeState = ThemeState(mode: ThemeMode, saved: Option<ThemeMode>)

  /** The provider starts in `system` mode, before the saved preference is read. */
  function InitialState(saved: Option<ThemeMode>): (st: ThemeState)
    ensures st.mode == System && st.saved == saved
  {
    ThemeState(System, saved)
  }

  /** `loadSavedTheme`: a saved mode, when there is one, replaces the current mode. */
  function LoadSaved(st: ThemeState): (r: ThemeState)
    ensures r.saved == st.saved
    ensures st.saved.Some? ==> r.mode == st.saved.value
    ensures st.saved.None? ==> r.mode == st.mode
  {
    if st.saved.Some? then st.(mode := st.saved.value) else st
  }

  /** `setMode`: the mode changes and is saved. */
  function SetMode(st: ThemeState, m: ThemeMode): (r: ThemeState)
    ensures r.mode == m && r.saved == Some(m)
  {
    ThemeState(m, Some(m))
  }

  /**
   Given a theme store that returns the last mode saved to it, a fresh provider
   loads the chosen mode back. The store is the `saved` slot, which is assumed,
   not modelled.
   */
  lemma SetModeSurvivesRestart(st: ThemeState, m: ThemeMode)
    ensures LoadSaved(InitialState(SetMode(st, m).saved)).mode == m
  {
  }

  /** With nothing saved, a fresh provider follows the system scheme. */
  lemma FreshFollowsSystem(scheme: ColorScheme)
    ensures ResolveTheme(LoadSaved(InitialState(None)).mode, scheme) == (if scheme == SchemeDark then DarkTheme else DefaultTheme)
  {
  }
}

=== FILE: types.dfy ===
/**
 The data model shared by the mobile app, the web app and the widget:
 menu items, sessions, rules and the preference record that drives
 selection. String-literal unions of the source become closed datatypes;
 ISO-8601 timestamps become integer instants; `null` and optional fields
 become `Option`.
 */
module Types {

  /** An absent-or-present value, standing for `T | null` and `field?: T`. */
  datatype Option<+T> = None | Some(value: T)

  /** The behavioural mode an item belongs to and the active view. */
  datatype Mode = Do | Decide | Drift

  /** Coarse time-cost estimate of an item. */
  datatype DurationBucket = TwoMin | TenMin | TwentyFiveMin

  /** Sort strategy of the selector. */
  datatype Ordering = ByDuration | ByRecent

  /** An instant in time, in milliseconds; stands for an ISO-8601 string. */
  type Instant = int

  datatype MenuItem = MenuItem(
    id: string,
    mode: Mode,
    title: string,
    startStep: string,
    durationBucket: DurationBucket,
    category: Option<string>,
    tags: seq<string>,
    frictionScore: int,
    enabled: bool,
    createdAt: Instant,
    updatedAt: Instant
  )

  datatype RuleTrigger = NewTab | Unlock | TimeWindow | PostBusyBlock

  datatype RuleAction = ShowMode | PinItem | StartTimer

  /** A value of a rule's condition record: a string, a number or a boolean. */
  datatype ConditionValue = Text(s: string) | Number(n: int) | Flag(b: bool)

  datatype Rule = Rule(
    id: string,
    trigger: RuleTrigger,
    conditions: map<string, ConditionValue>,
    action: RuleAction
  )

  datatype SessionOutcome = Done | Partial | Aborted

  datatype Device = Web | Mobile

  datatype Session = Session(
    id: string,
    itemId: string,
    startedAt: Instant,
    endedAt: Option<Instant>,
    device: Device,
    outcome: SessionOutcome,
    notes: Option<string>
  )

  /** Per-mode caps; the type puts no sign constraint on them. */
  datatype Caps = Caps(doMax: int, decideMax: int, driftMax: int)

  datatype WidgetConfig = WidgetConfig(smallWidgetMode: Mode, mediumWidgetModes: seq<Mode>)

  datatype Blocklists = Blocklists(tags: seq<string>, keywords: seq<string>)

  datatype Preference = Preference(
    caps: Caps,
    ordering: Ordering,
    widgetConfig: WidgetConfig,
    blocklists: Blocklists
  )

  /** The persisted state bundle. */
  datatype Snapshot = Snapshot(
    items: seq<MenuItem>,
    rules: seq<Rule>,
    sessions: seq<Session>,
    preferences: Preference
  )

  /** The fixed rank used by duration ordering: 2m < 10m < 25m. */
  function Rank(b: DurationBucket): (r: nat)
    ensures r < 3
    ensures b == TwoMin <==> r == 0
    ensures b == TwentyFiveMin <==> r == 2
  {
    match b
    case TwoMin => 0
    case TenMin => 1
    case TwentyFiveMin => 2
  }

  /** The rank map is total and tells buckets apart. */
  lemma RankInjective(a: DurationBucket, b: DurationBucket)
    ensures Rank(a) == Rank(b) <==> a == b
  {
  }

  /** The cap that applies to a mode. */
  function CapFor(caps: Caps, m: Mode): (n: int)
    ensures m == Do ==> n == caps.doMax
    ensures m == Decide ==> n == caps.decideMax
    ensures m == Drift ==> n == caps.driftMax
  {
    match m
    case Do => caps.doMax
    case Decide => caps.decideMax
    case Drift => caps.driftMax
  }
}

=== FILE: web_editor.dfy ===
/**
 The web item editor: the empty item of "Add item", the comma-separated tag
 field and the "Start step required" hint. The identifier and the two
 timestamps, which the source draws from `crypto.randomUUID()` and two
 separate clock reads, are parameters.
 */
module WebEditor {
  import opened Types
  import opened Text
  import opened Defaults
  import opened MobileEditor

  /** `createEmptyItem`. */
  function CreateEmptyItem(id: string, created: Instant, updated: Instant): (r: MenuItem)
    ensures r.createdAt == created && r.updatedAt == updated
    ensures r == BaseItem(id, created, updated)
  {
    MenuItem(id, Do, "", "", TwoMin, Some("career"), [], 1, true, created, updated)
  }

  /** Both editors add the same item when both clock reads agree. */
  lemma EditorsAddSameItem(id: string, now: Instant)
    ensures CreateEmptyItem(id, now, now) == NewItem(id, now)
  {
  }

  /** A tag as the field keeps it: non-empty, trimmed, free of commas. */
  predicate CleanTag(t: string) {
    |t| > 0 && IsTrimmed(t) && ',' !in t
  }

  /** `.map(tag => tag.trim()).filter(Boolean)`: trim every piece and drop the empty ones. */
  function TrimAndDropEmpty(pieces: seq<string>): (r: seq<string>)
    ensures |r| <= |pieces|
    ensures forall i :: 0 <= i < |r| ==> |r[i]| > 0 && IsTrimmed(r[i])
    ensures (forall i :: 0 <= i < |pieces| ==> ',' !in pieces[i]) ==> forall i :: 0 <= i < |r| ==> CleanTag(r[i])
  {
    if |pieces| == 0 then []
    else
      var t := Trim(pieces[0]);
      var rest := TrimAndDropEmpty(pieces[1..]);
      TrimIsInfix(pieces[0]);
      assert (forall i :: 0 <= i < |pieces| ==> ',' !in pieces[i]) ==> forall i :: 0 <= i < |pieces| - 1 ==> ',' !in pieces[1..][i];
      if t == "" then rest else [t] + rest
  }

  /** The tag field's `onChange`: split at commas, trim, drop empties. */
  function ParseTags(s: string): (r: seq<string>)
    ensures |r| <= CommaCount(s) + 1
    ensures forall i :: 0 <= i < |r| ==> CleanTag(r[i])
  {
    TrimAndDropEmpty(SplitComma(s))
  }

  /** The tag field's `value`: `tags.join(", ")`, one comma between neighbouring comma-free tags. */
  function ShowTags(tags: seq<string>): (r: string)
    ensures |tags| == 0 ==> r == ""
    ensures |tags| > 0 && (forall i :: 0 <= i < |tags| ==> ',' !in tags[i]) ==> CommaCount(r) == |tags| - 1
  {
    JoinComma(tags)
  }

  /** Split at its commas, the shown text gives back one piece per tag, each after the first behind a space. */
  lemma ShowTagsSplit(tags: seq<string>)
    requires |tags| > 0 && forall i :: 0 <= i < |tags| ==> CleanTag(tags[i])
    ensures |SplitComma(ShowTags(tags))| == |tags| && SplitComma(ShowTags(tags))[0] == tags[0]
    ensures forall i :: 0 < i < |tags| ==> SplitComma(ShowTags(tags))[i] == [' '] + tags[i]
  {
    SplitJoin(tags);
  }

  /** A leading space on the first piece does not survive the trim. */
  lemma DropLeadingSpace(s: string)
    ensures TrimAndDropEmpty(SplitComma([' '] + s)) == TrimAndDropEmpty(SplitComma(s))
  {
    var split := SplitComma(s);
    assert ([' '] + s)[1..] == s;
    assert SplitComma([' '] + s) == [[' '] + split[0]] + split[1..];
    TrimLeadingSpace(' ', split[0]);
    assert ([[' '] + split[0]] + split[1..])[1..] == split[1..];
    assert split == [split[0]] + split[1..];
  }

  /** A clean first piece passes through unchanged. */
  lemma CleanHead(t: string, pieces: seq<string>)
    requires CleanTag(t)
    ensures TrimAndDropEmpty([t] + pieces) == [t] + TrimAndDropEmpty(pieces)
  {
    assert ([t] + pieces)[1..] == pieces;
  }

  /** An empty tag list shows as the empty text, which parses to no tags. */
  lemma ParseShowEmpty()
    ensures ParseTags(ShowTags([])) == []
  {
    assert SplitComma("") == [""];
    assert Trim("") == "";
  }

  /** A first piece that trims to a non-empty tag gives the first tag. */
  lemma TrimHead(pieces: seq<string>)
    requires |pieces| > 0 && Trim(pieces[0]) != ""
    ensures TrimAndDropEmpty(pieces) == [Trim(pieces[0])] + TrimAndDropEmpty(pieces[1..])
  {
  }

  /** Pieces that trim to non-empty tags, one each, parse to exactly those tags. */
  lemma {:induction false} TrimAll(pieces: seq<string>, tags: seq<string>)
    requires |pieces| == |tags|
    requires forall i :: 0 <= i < |tags| ==> Trim(pieces[i]) == tags[i] && tags[i] != ""
    ensures TrimAndDropEmpty(pieces) == tags
  {
    if |pieces| > 0 {
      var p, t := pieces[1..], tags[1..];
      forall i | 0 <= i < |t|
        ensures Trim(p[i]) == t[i] && t[i] != ""
      {
        assert p[i] == pieces[i + 1] && t[i] == tags[i + 1];
      }
      TrimAll(p, t);
      assert Trim(pieces[0]) == tags[0] && tags[0] != "";
      TrimHead(pieces);
      assert tags == [tags[0]] + t;
    }
  }

  /** Showing clean tags and typing the text back gives the same tags. */
  lemma ParseShowRoundTrip(tags: seq<string>)
    requires forall i :: 0 <= i < |tags| ==> CleanTag(tags[i])
    ensures ParseTags(ShowTags(tags)) == tags
  {
    if |tags| == 0 {
      ParseShowEmpty();
    } else {
      ShowTagsSplit(tags);
      var pieces := SplitComma(ShowTags(tags));
      forall i | 0 <= i < |tags|
        ensures Trim(pieces[i]) == tags[i] && tags[i] != ""
      {
        if i > 0 {
          TrimLeadingSpace(' ', tags[i]);
        }
      }
      TrimAll(pieces, tags);
    }
  }

  /** Parsing is a normal form: parsing the shown result of a parse changes nothing. */
  lemma ParseIdempotent(s: string)
    ensures ParseTags(ShowTags(ParseTags(s))) == ParseTags(s)
  {
    ParseShowRoundTrip(ParseTags(s));
  }

  /** A piece that is empty or all whitespace, such as the one between two adjacent commas, is dropped. */
  lemma DropEmptyPiece(pieces: seq<string>)
    requires |pieces| > 0 && forall k :: 0 <= k < |pieces[0]| ==> IsSpace(pieces[0][k])
    ensures TrimAndDropEmpty(pieces) == TrimAndDropEmpty(pieces[1..])
  {
    TrimBlank(pieces[0]);
  }

  /** `!item.startStep`: the hint shows exactly when the start step is the empty string. */
  function StartStepWarning(item: MenuItem): (shown: bool)
    ensures shown <==> |item.startStep| == 0
  {
    item.startStep == ""
  }

  /** A fresh item shows the hint, and a whitespace-only step does not. */
  lemma WarningCases(id: string, created: Instant, updated: Instant)
    ensures StartStepWarning(CreateEmptyItem(id, created, updated))
    ensures !StartStepWarning(CreateEmptyItem(id, created, updated).(startStep := " "))
  {
  }
}

=== FILE: web_settings.dfy ===
/**
 The web settings page: the three cap inputs, the widget mode picker, the
 JSON export of the current snapshot and the JSON upload. Reading the file
 and `JSON.parse` are left out: an upload is the object the file parsed to,
 as a patch whose absent fields are `None`.
 */
module WebSettings {
  import opened Types
  import opened Selector
  import opened Store

  /** `Partial<Preference["caps"]>`. */
  datatype CapsPatch = CapsPatch(doMax: Option<int>, decideMax: Option<int>, driftMax: Option<int>)

  /** `updateCaps`: `{ ...preferences, caps: { ...preferences.caps, ...next } }`. */
  function UpdateCaps(p: Preference, next: CapsPatch): (r: Preference)
    ensures r.ordering == p.ordering && r.widgetConfig == p.widgetConfig && r.blocklists == p.blocklists
    ensures r.caps.doMax == (if next.doMax.Some? then next.doMax.value else p.caps.doMax)
    ensures r.caps.decideMax == (if next.decideMax.Some? then next.decideMax.value else p.caps.decideMax)
    ensures r.caps.driftMax == (if next.driftMax.Some? then next.driftMax.value else p.caps.driftMax)
  {
    p.(caps := Caps(Override(p.caps.doMax, next.doMax),
                    Override(p.caps.decideMax, next.decideMax),
                    Override(p.caps.driftMax, next.driftMax)))
  }

  /** The patch each cap input sends: only its own mode's field. */
  function CapInput(m: Mode, value: int): CapsPatch {
    match m
    case Do => CapsPatch(Some(value), None, None)
    case Decide => CapsPatch(None, Some(value), None)
    case Drift => CapsPatch(None, None, Some(value))
  }

  /** A cap input sets its own mode's cap and leaves the other modes' caps alone. */
  lemma CapInputSetsOwnCap(p: Preference, m: Mode, value: int, other: Mode)
    ensures CapFor(UpdateCaps(p, CapInput(m, value)).caps, m) == value
    ensures other != m ==> CapFor(UpdateCaps(p, CapInput(m, value)).caps, other) == CapFor(p.caps, other)
  {
  }

  /** Changing one mode's cap does not change what the selector shows for another mode. */
  lemma CapInputKeepsOtherSelections(items: seq<MenuItem>, p: Preference, m: Mode, value: int, other: Mode)
    requires other != m
    ensures SelectMenuItems(items, other, UpdateCaps(p, CapInput(m, value))) == SelectMenuItems(items, other, p)
  {
    var q := UpdateCaps(p, CapInput(m, value));
    CapInputSetsOwnCap(p, m, value, other);
    assert Candidates(items, other, q) == Candidates(items, other, p);
  }

  /** The widget mode picker: only `widgetConfig.smallWidgetMode` changes. */
  function SetSmallWidgetMode(p: Preference, m: Mode): (r: Preference)
    ensures r.widgetConfig.smallWidgetMode == m
    ensures r.widgetConfig.mediumWidgetModes == p.widgetConfig.mediumWidgetModes
    ensures r.caps == p.caps && r.ordering == p.ordering && r.blocklists == p.blocklists
  {
    p.(widgetConfig := p.widgetConfig.(smallWidgetMode := m))
  }

  /** Picking a widget mode does not change any selection. */
  lemma WidgetModeKeepsSelections(items: seq<MenuItem>, p: Preference, m: Mode, shown: Mode)
    ensures SelectMenuItems(items, shown, SetSmallWidgetMode(p, m)) == SelectMenuItems(items, shown, p)
  {
    assert Candidates(items, shown, SetSmallWidgetMode(p, m)) == Candidates(items, shown, p);
  }

  /** The web app's state: the snapshot's parts plus the current view mode and decision. */
  datatype WebState = WebState(
    items: seq<MenuItem>,
    rules: seq<Rule>,
    sessions: seq<Session>,
    preferences: Preference,
    mode: Mode,
    activeDecisionId: Option<string>
  )

  /** The `snapshot` object `downloadJson` writes: the four persisted parts, without the view state. */
  function ExportSnapshot(st: WebState): (s: Snapshot)
    ensures s.items == st.items && s.rules == st.rules && s.sessions == st.sessions && s.preferences == st.preferences
  {
    Snapshot(st.items, st.rules, st.sessions, st.preferences)
  }

  /** The view state is not exported. */
  lemma ExportIgnoresViewState(st: WebState, m: Mode, d: Option<string>)
    ensures ExportSnapshot(st.(mode := m, activeDecisionId := d)) == ExportSnapshot(st)
  {
  }

  /** `handleUpload`: no file does nothing; a parsed file goes through `replaceSnapshot`. */
  function HandleUpload(s: Snapshot, file: Option<SnapshotPatch>): (r: Snapshot)
    ensures file.None? ==> r == s
    ensures file.Some? ==> r == ApplySnapshot(s, file.value)
  {
    match file
    case None => s
    case Some(parsed) => ApplySnapshot(s, parsed)
  }

  /** Uploading an exported file restores the exported snapshot, whatever the state it is uploaded into. */
  lemma UploadExportRoundTrip(st: WebState, s: Snapshot)
    ensures HandleUpload(s, Some(AsPatch(ExportSnapshot(st)))) == ExportSnapshot(st)
  {
    ApplyCompleteReplaces(s, ExportSnapshot(st));
  }

  /** A file holding only `items` replaces the items and keeps the rest. */
  lemma UploadItemsOnly(s: Snapshot, items: seq<MenuItem>)
    ensures HandleUpload(s, Some(SnapshotPatch(Some(items), None, None, None))) == s.(items := items)
  {
  }
}

=== FILE: widget.dfy ===
/**
 The home-screen widget's data: the first item of each mode, taken from the
 whole item list. Enabled flags, blocklists and caps play no part.
 */
module Widget {
  import opened Types
  import opened Seqs
  import opened Selector
  import opened Defaults
  import opened DefaultViews

  /** `pickTop`: `items.find(item => item.mode === mode)`; `None` stands for `undefined`. */
  function PickTop(items: seq<MenuItem>, m: Mode): (r: Option<MenuItem>)
    ensures r.None? <==> forall i :: 0 <= i < |items| ==> items[i].mode != m
    ensures r.Some? ==> exists i :: 0 <= i < |items| && items[i] == r.value && r.value.mode == m
                                   && forall j :: 0 <= j < i ==> items[j].mode != m
  {
    if |items| == 0 then None
    else if items[0].mode == m then Some(items[0])
    else
      var r := PickTop(items[1..], m);
      assert forall i :: 1 <= i < |items| ==> items[i] == items[1..][i - 1];
      r
  }

  datatype WidgetSnapshot = WidgetSnapshot(topDo: Option<MenuItem>, topDecide: Option<MenuItem>, topDrift: Option<MenuItem>)

  /** `generateWidgetSnapshot`. */
  function GenerateWidgetSnapshot(items: seq<MenuItem>): (w: WidgetSnapshot)
    ensures w.topDo.Some? ==> w.topDo.value.mode == Do
    ensures w.topDecide.Some? ==> w.topDecide.value.mode == Decide
    ensures w.topDrift.Some? ==> w.topDrift.value.mode == Drift
  {
    WidgetSnapshot(PickTop(items, Do), PickTop(items, Decide), PickTop(items, Drift))
  }

  /** The pick is the head of the mode's items, if any: only `mode` is consulted. */
  lemma {:induction false} PickTopIsFirstOfMode(items: seq<MenuItem>, m: Mode)
    ensures PickTop(items, m) == if OfMode(items, m) == [] then None else Some(OfMode(items, m)[0])
  {
    if |items| > 0 {
      FilterCons(HasMode(m), items[0], items[1..]);
      assert items == [items[0]] + items[1..];
      PickTopIsFirstOfMode(items[1..], m);
    }
  }

  /** Inserting or removing an item of another mode leaves the pick unchanged. */
  lemma {:induction false} PickTopIgnoresOtherModes(a: seq<MenuItem>, x: MenuItem, b: seq<MenuItem>, m: Mode)
    requires x.mode != m
    ensures PickTop(a + [x] + b, m) == PickTop(a + b, m)
  {
    if |a| == 0 {
      assert a + [x] + b == [x] + b;
      assert ([x] + b)[1..] == b;
      assert a + b == b;
    } else {
      assert (a + [x] + b)[0] == a[0] && (a + b)[0] == a[0];
      assert (a + [x] + b)[1..] == a[1..] + [x] + b;
      assert (a + b)[1..] == a[1..] + b;
      PickTopIgnoresOtherModes(a[1..], x, b, m);
    }
  }

  /** Empty input leaves every slot undefined. */
  lemma EmptySnapshot()
    ensures GenerateWidgetSnapshot([]) == WidgetSnapshot(None, None, None)
  {
  }

  /** Two `do` items, one `decide`, one `drift`: each slot holds the first of its mode. */
  lemma SnapshotPicksFirst(items: seq<MenuItem>)
    requires |items| == 4
    requires items[0].mode == Do && items[1].mode == Do
    requires items[2].mode == Decide && items[3].mode == Drift
    ensures GenerateWidgetSnapshot(items) == WidgetSnapshot(Some(items[0]), Some(items[2]), Some(items[3]))
  {
    assert items[1..][1..][0] == items[2];
    assert items[1..][1..][1..][0] == items[3];
  }

  /** On the default items the widget shows the first item of each mode's block. */
  lemma DefaultWidget(d: seq<MenuItem>)
    requires DefaultLayout(d)
    ensures GenerateWidgetSnapshot(d) == WidgetSnapshot(Some(d[0]), Some(d[3]), Some(d[5]))
  {
    DefaultDoItems(d);
    DefaultDecideItems(d);
    DefaultDriftItems(d);
    PickTopIsFirstOfMode(d, Do);
    PickTopIsFirstOfMode(d, Decide);
    PickTopIsFirstOfMode(d, Drift);
  }

  /** A lone `do` item fills the `do` slot and leaves the others undefined. */
  lemma SnapshotMissingModes(x: MenuItem)
    requires x.mode == Do
    ensures GenerateWidgetSnapshot([x]) == WidgetSnapshot(Some(x), None, None)
  {
  }
}
